=== FILE: README.md ===
# Todo tracker with a live push channel — Dafny model

This project models the sequential logic of a small todo tracker in Dafny. The tracker has three parts:

- a Next.js browser client that keeps a list of todos and holds a WebSocket client that reconnects on its own;
- a Go REST server whose repository stores todos in Postgres;
- a Python MCP "secretary" whose tools call the REST service and format the answers as text.

Each piece is written as immutable datatypes and pure transition functions. Everything outside that logic becomes an input:

- network and database outcomes;
- timer firings and the wall clock;
- socket events.

| file | module | models |
|---|---|---|
| wrappers.dfy | `Wrappers` | `Option` and `Result` |
| digits.dfy | `Digits` | decimal digit texts: the date layout's fixed-width fields and Python's `str`/`int` of ids |
| api.dfy | `Api` | the client's `Todo` record |
| websocket.dfy | `WebSocket` | `WebSocketClient`: connect, reconnect with backoff, dispatch, send, disconnect |
| todo_list.dfy | `TodoList` | the list component's fetch, add, update and delete handlers |
| todo_item.dfy | `TodoItem` | the status toggle, its button label and the status-change callback |
| todo_form.dfy | `TodoForm` | field updates and the submit state machine |
| page.dfy | `Page` | the form's `onAddTodo` wired to the list's `handleAddTodo` |
| todo_repository.dfy | `TodoRepository` | `Create`, `List`, `GetByID`, `Update` and `Delete` over an abstract `todos` table |
| secretary.dfy | `Secretary` | `format_todo`, `list_tasks`, `create_task` and `update_task_status` |

Modelling choices:

- **WebSocket client.** The state is the socket handle, the reconnect counter, the delays of the pending reconnect timers, and which handlers are set. Each socket the client creates carries a fresh number. A `close` from a socket the client no longer holds therefore still runs `attemptReconnect`, as in the code: the closures capture the client, not the socket. `new WebSocket` throwing is an input of `connect`. `Math.pow(2, n-1)` is an exact power of two (`Pow2`).
- **List component.** REST outcomes are inputs. `handleUpdateTodo` starts a refetch it does not await, so the fetch's completion is a separate event.
- **Repository.** The table is a map from primary key to row, plus the next value of the `SERIAL` sequence. `Valid` is the integrity the schema keeps: every key is the row's id, every id is below the sequence, the sequence stays within Postgres's 4-byte `integer`, and every title and status fits its column. Every write preserves it. `List` requires it so that "each row exactly once" can be stated by id.
- **What the database refuses.** `title VARCHAR(255)` and `status VARCHAR(50)` are stored as Postgres stores them (`Fit`). A longer value is cut to the width when everything past it is blanks, and refused otherwise. Widths count characters, as Postgres does. The database also refuses an id outside the 4-byte `integer` range of `id SERIAL`, a NUL character in a text parameter, and an insert once the sequence has passed the `integer` maximum. Each refusal is `StatementFailed`, the repository's `error … todo: %v`. The bound values are folded into the statement's plan, so an update with a status that does not fit fails even when no row has that id.
- **Dates.** Date parsing is `time.Parse` with layout `2006-01-02`. The model accepts exactly four digits, a dash, two digits, a dash and two digits. The month must be in 1..12 and the day must exist in that month. Timestamps are integers, and `CURRENT_TIMESTAMP` is the parameter `now`.
- **Secretary.** A todo is a dictionary from key to the text Python renders for the value. `make_api_request` comes down to three outcomes: it raised, it returned an empty body, or it returned a value.

Behaviour of the code worth knowing, each stated as a lemma:

- **Manual `connect` does not reset the counter.** Once the counter is exhausted, nothing but a successful `open` brings it down (`ExhaustedStaysExhausted`, `ConnectKeepsCounter`).
- **More than one reconnect timer can be pending.** Nothing stops a second reconnect timer from being scheduled while one is pending (`TwoTimersCanBePending`).
- **No teardown guard.** A socket released by `disconnect` keeps its `onclose` closure and still schedules a reconnect (`DisconnectThenStaleClose`).
- **No de-duplication on add.** Adding a todo whose id is already shown duplicates it (`AddDuplicateDuplicates`). Ids stay unique exactly when the id was absent (`AddKeepsUniqueIff`).
- **No local edit on update.** `handleUpdateTodo` never edits the list; only the refetch does.
- **Toggle label for unexpected statuses.** The server stores any status its column accepts (see **What the database refuses**). For a status other than `pending` or `completed`, the toggle button says "Mark Complete" but sets `pending` (`LabelMisleadsOnOtherStatus`).
- **Dead branch in `list_tasks`.** The "No tasks found." branch cannot be reached: an empty list already answers "Unable to fetch tasks." (`ListTasks`).

## Model

| member | source | states |
|---|---|---|
| WebSocket.AttemptReconnect | client/src/lib/websocket.ts:62-71 | below the maximum, the counter goes up by one and exactly one timer is added with delay 1000·2^(counter−1); at the maximum nothing changes and no timer is scheduled |
| WebSocket.BackoffDelay | client/src/lib/websocket.ts:65 | the first attempt waits the base 1000 ms; every later attempt waits at least twice that |
| WebSocket.ConnectClient | client/src/lib/websocket.ts:21-56 | a no-op when the socket is CONNECTING or OPEN; otherwise it installs a fresh CONNECTING socket with the counter and timers unchanged, or reconnects when the constructor throws |
| WebSocket.OnOpen | client/src/lib/websocket.ts:30-33 | an open resets the counter to 0, marks the held socket `Open` when it is the socket that opened (so later sends go out), keeps everything else, and schedules, sends and invokes nothing |
| WebSocket.OnClose | client/src/lib/websocket.ts:35-38 | a close marks its socket CLOSED; while attempts remain the counter goes up by one and the next backoff delay joins the pending timers, else nothing is scheduled; the next socket number is kept |
| WebSocket.KindOf | client/src/lib/websocket.ts:78-90 | a recognised type tag maps to the handler whose tag it is |
| WebSocket.KindOfTypeName | client/src/lib/websocket.ts:79-87 | each handler's tag is recognised as that handler |
| WebSocket.KindOfUnknown | client/src/lib/websocket.ts:88-90 | a tag is unrecognised exactly when no handler carries it |
| WebSocket.Dispatch | client/src/lib/websocket.ts:77-91 | a frame reaches a handler exactly when it parsed, its tag names a kind, and that handler is set; the handler gets the payload unchanged; at most one handler is invoked |
| WebSocket.OnMessage | client/src/lib/websocket.ts:44-51 | a frame only dispatches: connection state, counter and timers are untouched |
| WebSocket.SendData | client/src/lib/websocket.ts:105-111 | data goes out exactly when the socket is OPEN; the client never changes |
| WebSocket.DisconnectClient | client/src/lib/websocket.ts:116-121 | the handle becomes null, the counter, timers and socket numbering stay; with no handle it is a no-op |
| WebSocket.RemoveAt | client/src/lib/websocket.ts:67 | exactly the fired timer leaves the pending ones, and the others keep their order |
| WebSocket.FireTimer | client/src/lib/websocket.ts:67 | the fired timer leaves the pending ones, and the only timer that can join them is the one a failing `connect` schedules; the counter is never lowered; a live socket is kept, a constructed one installed; a timer that is not pending does nothing |
| WebSocket.SetHandlerOf | client/src/lib/websocket.ts:93-99 | setting one handler leaves the other two as they were |
| WebSocket.Step | client/src/lib/websocket.ts:21-121 | no event takes the counter above 5; only `open` lowers it; only `send` on an OPEN socket sends; only a frame invokes a handler; a timer is scheduled only below the maximum |
| WebSocket.BackoffDoubles | client/src/lib/websocket.ts:65 | each reconnect waits twice as long as the previous one |
| WebSocket.BackoffTable | client/src/lib/websocket.ts:62-67 | the delays of attempts 1..5 are 1000, 2000, 4000, 8000 and 16000 ms |
| WebSocket.AttemptsBounded | client/src/lib/websocket.ts:62-70 | from a counter within the bound, every sequence of events keeps it within the bound |
| WebSocket.ReachableAttemptsBounded | client/src/lib/websocket.ts:6-8 | from a fresh client the counter never exceeds 5 |
| WebSocket.ExhaustedStaysExhausted | client/src/lib/websocket.ts:62-70 | at 5 attempts, any events without an `open` (manual connects included) keep the counter at 5 and schedule no timer |
| WebSocket.ClosesWalkBackoff | client/src/lib/websocket.ts:35-38 | consecutive closes schedule the backoff delays from the current counter up to the maximum |
| WebSocket.SixClosesFromFresh | client/src/lib/websocket.ts:62-70 | from a zero counter six closes schedule exactly 1000, 2000, 4000, 8000 and 16000 and nothing sixth |
| WebSocket.ConnectKeepsCounter | client/src/lib/websocket.ts:21-33 | `connect` never lowers the counter, and leaves it unchanged when the socket is constructed |
| WebSocket.DisconnectThenStaleClose | client/src/lib/websocket.ts:116-121 | after `disconnect` the released socket's close still schedules a reconnect |
| WebSocket.DisconnectIdempotent | client/src/lib/websocket.ts:116-121 | a second `disconnect` does nothing more |
| WebSocket.ErrorAndMessageKeepState | client/src/lib/websocket.ts:40-51 | an error event changes nothing; a frame never touches the connection; an unparsable frame has no effect at all |
| WebSocket.TwoTimersCanBePending | client/src/lib/websocket.ts:62-67 | close, manual connect and a second close leave two reconnect timers pending |
| TodoList.FetchTodos | client/src/components/TodoList.tsx:13-23 | success replaces the list with the server's and clears the error; failure keeps the list and reports "Failed to load todos"; loading ends either way |
| TodoList.AddTodo | client/src/components/TodoList.tsx:29-31 | the list grows by one, its head is the new todo, its tail the old list |
| TodoList.RemoveId | client/src/components/TodoList.tsx:45 | the filtered list is no longer, holds only old entries, and none with the deleted id |
| TodoList.DeleteTodo | client/src/components/TodoList.tsx:42-49 | success filters out the id and keeps the error; failure keeps the list and reports "Failed to delete todo" |
| TodoList.UpdateTodo | client/src/components/TodoList.tsx:33-40 | the list is never edited; success only requests a refetch; failure reports "Failed to update todo" |
| TodoList.FailureKeepsList | client/src/components/TodoList.tsx:13-49 | every failed REST call leaves the list as it was and sets an error |
| TodoList.RemoveIdCounts | client/src/components/TodoList.tsx:45 | every other entry keeps its multiplicity; entries with the id are gone |
| TodoList.RemoveIdConcat | client/src/components/TodoList.tsx:45 | filtering distributes over concatenation, so survivors keep their relative order |
| TodoList.RemoveAbsentId | client/src/components/TodoList.tsx:45 | deleting an id nobody carries leaves the list unchanged |
| TodoList.RemoveIdIdempotent | client/src/components/TodoList.tsx:42-45 | deleting the same id twice equals deleting it once |
| TodoList.RemoveIdKeepsUnique | client/src/components/TodoList.tsx:45 | a list with unique ids keeps them unique after a delete |
| TodoList.RemoveListedTodo | client/src/components/TodoList.tsx:45 | with unique ids, deleting a listed todo's id removes that todo once and keeps every other entry |
| TodoList.AddKeepsUniqueIff | client/src/components/TodoList.tsx:30 | after an add, ids are unique if and only if the new id was absent |
| TodoList.AddDuplicateDuplicates | client/src/components/TodoList.tsx:29-31 | adding a todo whose id is shown leaves two entries with that id |
| TodoList.DeleteUndoesFreshAdd | client/src/components/TodoList.tsx:29-45 | deleting a freshly added todo restores the earlier state |
| TodoList.StepKeepsUnique | client/src/components/TodoList.tsx:13-49 | every event keeps ids unique when fetched lists are unique and added ids are fresh |
| TodoItem.Toggle | client/src/components/TodoItem.tsx:13 | the toggle always yields a valid status, different from a valid input |
| TodoItem.ToggleStatus | client/src/components/TodoItem.tsx:12-15 | the callback receives the row's own id and a valid status different from a valid current one |
| TodoItem.Label | client/src/components/TodoItem.tsx:47 | the button reads one of the two captions, and names the status the click sets exactly when the current status is `pending` or `completed` |
| TodoItem.ToggleTwice | client/src/components/TodoItem.tsx:13 | toggling twice is the identity on `pending` and `completed` |
| TodoItem.LabelMatchesToggle | client/src/components/TodoItem.tsx:47 | for a valid status the label names the status the click sets, and reads "Mark Pending" exactly for `completed` |
| TodoItem.LabelMisleadsOnOtherStatus | client/src/components/TodoItem.tsx:47 | for any other status the label offers completion while the click sets `pending` |
| TodoForm.HandleChange | client/src/components/TodoForm.tsx:35-38 | the named field takes the value, the other two keep theirs, loading and error stay |
| TodoForm.BeginSubmit | client/src/components/TodoForm.tsx:19-25 | before the outcome is known, loading is on, the error is cleared, and the request carries the form's three fields |
| TodoForm.FinishSubmit | client/src/components/TodoForm.tsx:24-32 | success hands the created todo to `onAddTodo` exactly once and clears the fields; failure calls nothing, keeps the fields and reports "Failed to create todo"; loading ends either way |
| TodoForm.SubmitOutcome | client/src/components/TodoForm.tsx:19-33 | after a whole submit an error shows exactly when the call failed, and success returns the form to its initial state |
| TodoForm.ChangesCommute | client/src/components/TodoForm.tsx:35-38 | edits to two different fields commute |
| Page.AddAll | client/src/components/TodoList.tsx:29-31 | each reported todo is prepended in turn, the old list kept as the tail |
| Page.SubmitReachesList | client/src/components/TodoForm.tsx:25-27 | a successful submit puts the created todo at the head of the list; a failed one leaves the list alone |
| Page.DeleteClickRemovesRow | client/src/components/TodoItem.tsx:50 | clicking a row's Delete passes the row's id, and a successful delete removes exactly that row from a list with unique ids |
| TodoRepository.EmptyTable | server/db/db.go:42-50 | the freshly created table is empty and satisfies the table invariant |
| TodoRepository.Fit | server/db/db.go:44-46 | a text is stored exactly when everything past the column's width is blanks; what is stored is a prefix within the width, only blanks are cut, and a text within the width is stored unchanged |
| Digits.NumberOfPadded | server/repository/todo_repository.go:37 | a number written with fixed-width digits reads back as itself |
| Digits.PaddedOfNumber | server/repository/todo_repository.go:37 | a digit string is the fixed-width writing of its value |
| TodoRepository.ParseDate | server/repository/todo_repository.go:37-40 | an accepted due date is a real calendar date with a four-digit year |
| TodoRepository.ParseFormatDate | server/repository/todo_repository.go:37 | every valid date parses back from its `2006-01-02` text |
| TodoRepository.FormatParseDate | server/repository/todo_repository.go:37 | only the exact `2006-01-02` text of a date is accepted |
| TodoRepository.Create | server/repository/todo_repository.go:30-56 | an unparsable date is rejected with `invalid date format`; a NUL in the title or description, an exhausted sequence or a title that does not fit its column fails the insert; otherwise exactly one row is added under an id not in the table, with the title as its column stores it, the input's description, status `pending` whatever the input says, and the table stays valid |
| TodoRepository.GetByID | server/repository/todo_repository.go:96-113 | an id outside `integer` fails the query; otherwise an absent id gives `todo not found` and a present one gives its row |
| TodoRepository.Update | server/repository/todo_repository.go:115-137 | an id outside `integer`, a status with a NUL or a status that does not fit its column fails the statement, whether or not the row exists; otherwise an absent id gives `todo not found`, and else only that row's status (as its column stores it) and update time change, and the row is returned |
| TodoRepository.Delete | server/repository/todo_repository.go:139-159 | an id outside `integer` fails the statement; otherwise an absent id gives `todo not found`, and a present one is removed, exactly that row |
| TodoRepository.InsertPos | server/repository/todo_repository.go:68 | the insertion point of a row in a newest-first list has only strictly newer rows before it |
| TodoRepository.Insert | server/repository/todo_repository.go:68 | inserting keeps the list newest first, adds exactly the row, and keeps ids distinct |
| TodoRepository.List | server/repository/todo_repository.go:58-94 | a filter with a NUL fails the query; otherwise the result holds every selected row exactly once and nothing else, newest first, and an empty filter selects all rows |
| TodoRepository.CreateThenGet | server/repository/todo_repository.go:42-49 | a created row is found by its id |
| TodoRepository.CreatedIsListed | server/repository/todo_repository.go:43-46 | a created row appears when listing all rows and when listing pending rows |
| TodoRepository.ListingFilters | server/repository/todo_repository.go:67-69 | a non-empty filter lists only rows with that status |
| TodoRepository.UpdateTouchesOnlyStatus | server/repository/todo_repository.go:121-126 | other rows and the row's other fields are unchanged by an update; the status is the new one as its column stores it |
| TodoRepository.TooLongStatusFailsFirst | server/repository/todo_repository.go:118-130 | a status too long for its column fails the update whether the row exists or not; no `todo not found` comes back for it |
| TodoRepository.TrailingBlanksAreCut | server/repository/todo_repository.go:42-49 | a title or status wider than its column by blanks alone is stored cut to the width, not refused |
| TodoRepository.WritesKeepValid | server/repository/todo_repository.go:115-156 | update and delete keep the table invariant, column widths included |
| TodoRepository.DeleteThenGone | server/repository/todo_repository.go:144-156 | a deleted row is not found and a second delete reports `todo not found` |
| TodoRepository.DeleteUndoesCreate | server/repository/todo_repository.go:42-49 | deleting the row just created restores the rows, but the id is not reused |
| TodoRepository.CreatesGetDistinctIds | server/repository/todo_repository.go:42-49 | two creates in a row never hand out the same id |
| Secretary.MakeApiRequest | secretary/secretary.py:12-34 | a value comes back exactly when the exchange produced a body |
| Secretary.FormatTodo | secretary/secretary.py:36-43 | the formatted block begins and ends with a newline |
| Secretary.FormatTodoJoin | secretary/secretary.py:36-43 | for every todo, multi-line values included, the block is an empty line, the Title, Description, Status and Due Date lines and a final empty line, joined by newlines |
| Secretary.FormatTodoLines | secretary/secretary.py:36-43 | when none of the title, description, status and due date spans lines, the block splits into an empty line, the Title, Description, Status and Due Date lines in that order, and a final empty line; each line carries the value when the key is present and the default only when absent |
| Secretary.LookupPresent | secretary/secretary.py:38-42 | a present key shows its value, even one that reads like the default |
| Secretary.FormatAll | secretary/secretary.py:53 | one formatted block per todo, in input order |
| Secretary.FormatAllAppend | secretary/secretary.py:53 | formatting one more todo appends exactly its block |
| Secretary.ListTasks | secretary/secretary.py:45-54 | "Unable to fetch tasks." is replied exactly when nothing or an empty list came back, "No tasks found." is never replied, and otherwise the reply begins with the first todo's block |
| Secretary.ListTasksAppend | secretary/secretary.py:53-54 | one todo lists as its block; each further todo appends the separator and its block |
| Secretary.CreateTask | secretary/secretary.py:57-74 | the request is a POST to `/todos` whose body is exactly the caller's title, description and due date under the API's names, plus status `pending` |
| Secretary.CreateTaskReply | secretary/secretary.py:72-74 | the reply is "Failed to create task." exactly when no non-empty todo came back, and otherwise is the success prefix followed by the formatted todo |
| Digits.IntTextRoundTrip | secretary/secretary.py:84-86 | the decimal text of an id reads back as the id |
| Digits.IntTextInjective | secretary/secretary.py:84-86 | different ids have different decimal texts |
| Digits.NatText | secretary/secretary.py:84 | the text of a non-negative id is its digits with no leading zero, and reads back as the id |
| Secretary.UpdateTaskStatus | secretary/secretary.py:77-87 | the request is a PUT whose body is only the status |
| Secretary.UpdateTaskUrl | secretary/secretary.py:84 | the URL is the todos path followed by the task id's text |
| Secretary.UpdateTaskReply | secretary/secretary.py:85-87 | the reply is the task's failure text exactly when no non-empty todo came back, and otherwise is the success prefix followed by the formatted todo |
| Secretary.UpdateFailureNamesTask | secretary/secretary.py:86 | different ids give different failure texts |
| Secretary.FailuresLookAlike | secretary/secretary.py:31-34 | every tool answers an exception and an empty body alike |

## Left out

- The browser WebSocket runtime, `setTimeout`, and logging. Socket events, timer firings and the result of `new WebSocket` are inputs.
- A handler that throws inside `onmessage`. The surrounding `catch` would swallow it; handlers are opaque here.
- The singleton accessor `getWsClient` and the module-level instance (client/src/lib/websocket.ts:124-140). They only manage a global instance.
- The JSON encoding of outbound frames. `send` carries the already encoded text.
- The fetch wrappers in client/src/lib/api.ts. Each call is a success-with-value or failure input.
- React rendering, JSX markup and styling in the components, client/src/app/page.tsx and client/tailwind.config.ts.
- HTTP routing, status codes, CORS and start-up in server/handlers/todo_handlers.go and server/main.go.
- server/handlers/websocket_handler.go. Its substance is concurrent broadcast over a locked client map, and its broadcast is never called by the handlers shown.
- The repository's `database connection is nil` branches, and failures of the connection or the driver itself: a lost connection, a failed row scan, `RowsAffected` failing. Failures caused by the arguments are modelled as `StatementFailed`.
- `SERIAL` values consumed by failed inserts. The model advances the sequence only on success, and a failed insert leaves the table as it was.
- TodoList.FetchTodos: a successful fetch always delivers a list. On an empty table the server's `List` returns a nil slice (server/repository/todo_repository.go:80, 93), which server/handlers/todo_handlers.go:55 encodes as `null`. The client then stores `null` (client/src/components/TodoList.tsx:16), and the render's `todos.map` (client/src/components/TodoList.tsx:68) throws. The model's list state is always a sequence, so it has no value for this and delivers `[]` instead.
- The time zone and clock part of timestamps. `now` is an integer, and `ORDER BY created_at DESC` leaves rows with equal timestamps in any order.
- TodoRepository.List: requires the table invariant `Valid`. The code needs no such condition, but the schema guarantees it and every modelled write preserves it.
- The MCP server framework, the HTTP client and its timeouts. A dictionary's values are the text Python renders for them. JSON answers that are neither a list of objects nor an object are not modelled.

=== FILE: api.dfy ===
/**
 * The records the browser client exchanges with the REST service
 * (client/src/lib/api.ts). The fetch wrappers themselves are not modelled:
 * every call is an input of the component that makes it, either a value
 * (the call succeeded) or its absence (the call threw).
 */
module Api {

  /** The two statuses the client's type admits. The server stores any string. */
  const Pending: string := "pending"
  const Completed: string := "completed"

  /** A todo as the client receives it; timestamps and the due date stay JSON text. */
  datatype Todo = Todo(
    id: int,
    title: string,
    description: string,
    status: string,
    dueDate: string,
    createdAt: string,
    updatedAt: string
  )

  /** The body of `POST /todos` that the form sends. */
  datatype TodoInput = TodoInput(title: string, description: string, dueDate: string)
}

=== FILE: digits.dfy ===
/**
 * Decimal digit texts, shared by the repository's date layout (fixed-width,
 * zero-padded fields) and the assistant's ids in URLs and replies
 * (Python's `str` and `int` on integers).
 */
module Digits {
  import opened Wrappers

  predicate IsDigit(c: char) {
    '0' <= c <= '9'
  }

  predicate AllDigits(s: string) {
    forall i :: 0 <= i < |s| ==> IsDigit(s[i])
  }

  function DigitChar(n: nat): (c: char)
    requires n < 10
    ensures IsDigit(c)
    ensures c == '0' <==> n == 0
  {
    (n + '0' as int) as char
  }

  function DigitValue(c: char): (n: nat)
    requires IsDigit(c)
    ensures n < 10 && DigitChar(n) == c
  {
    (c as int - '0' as int) as nat
  }

  function Pow10(n: nat): nat {
    if n == 0 then 1 else 10 * Pow10(n - 1)
  }

  /** The value of a decimal digit string, most significant digit first. */
  function Number(s: string): (n: nat)
    requires AllDigits(s)
    ensures n < Pow10(|s|)
  {
    if s == [] then 0 else Number(s[..|s| - 1]) * 10 + DigitValue(s[|s| - 1])
  }

  /** `n` written with exactly `width` digits, zero-padded on the left. */
  function Padded(n: nat, width: nat): (s: string)
    ensures |s| == width && AllDigits(s)
  {
    if width == 0 then [] else Padded(n / 10, width - 1) + [DigitChar(n % 10)]
  }

  lemma {:induction false} NumberOfPadded(n: nat, width: nat)
    requires n < Pow10(width)
    ensures Number(Padded(n, width)) == n
  {
    if width > 0 {
      var s := Padded(n, width);
      assert s[..|s| - 1] == Padded(n / 10, width - 1);
      NumberOfPadded(n / 10, width - 1);
    }
  }

  lemma {:induction false} PaddedOfNumber(s: string)
    requires AllDigits(s)
    ensures Padded(Number(s), |s|) == s
  {
    if s != [] {
      var init := s[..|s| - 1];
      PaddedOfNumber(init);
      assert Number(s) / 10 == Number(init);
      assert s == init + [s[|s| - 1]];
    }
  }

  /** How many digits `n` has when written without leading zeros (one for zero). */
  function Width(n: nat): (w: nat)
    ensures w >= 1
    ensures n < Pow10(w)
    ensures w > 1 ==> Pow10(w - 1) <= n
  {
    if n < 10 then 1 else 1 + Width(n / 10)
  }

  /** A number written to exactly its width starts with a non-zero digit. */
  lemma {:induction false} LeadingDigit(n: nat, w: nat)
    requires w >= 1 && Pow10(w - 1) <= n < Pow10(w)
    ensures Padded(n, w)[0] != '0'
  {
    if w > 1 {
      assert Pow10(w - 2) <= n / 10 < Pow10(w - 1);
      LeadingDigit(n / 10, w - 1);
      assert Padded(n, w)[0] == Padded(n / 10, w - 1)[0];
    }
  }

  /** Python's `str` of a non-negative integer: its digits, no leading zero. */
  function NatText(n: nat): (s: string)
    ensures |s| >= 1 && AllDigits(s)
    ensures Number(s) == n
    ensures s[0] == '0' ==> s == "0"
  {
    var w := Width(n);
    NumberOfPadded(n, w);
    if w > 1 then LeadingDigit(n, w); Padded(n, w)
    else Padded(n, w)
  }

  /** Python's `str` of an integer. */
  function IntText(n: int): (s: string)
    ensures |s| >= 1
    ensures n < 0 <==> s[0] == '-'
  {
    if n < 0 then "-" + NatText(-n) else NatText(n)
  }

  /**
   * Python's `int` on the texts `str` produces: an optional minus sign and
   * at least one digit. Any other text gives `None`; the other spellings
   * `int` accepts (a plus sign, blanks, underscores) are not needed here.
   */
  function IntValue(s: string): (r: Option<int>)
    ensures r.Some? ==> |s| >= 1
  {
    if |s| > 1 && s[0] == '-' && AllDigits(s[1..]) then
      var magnitude: int := Number(s[1..]);
      Some(-magnitude)
    else if |s| >= 1 && AllDigits(s) then Some(Number(s))
    else None
  }

  /** The text `str` gives an integer reads back as that integer. */
  lemma IntTextRoundTrip(n: int)
    ensures IntValue(IntText(n)) == Some(n)
  {
    var s := IntText(n);
    if n < 0 {
      assert s[1..] == NatText(-n);
    } else {
      assert !IsDigit('-');
    }
  }

  /** Different integers have different texts. */
  lemma IntTextInjective(m: int, n: int)
    requires m != n
    ensures IntText(m) != IntText(n)
  {
    IntTextRoundTrip(m);
    IntTextRoundTrip(n);
  }
}

=== FILE: page.dfy ===
/**
 * The form wired into the list, as TodoList.tsx renders it: the form's
 * `onAddTodo` is the list's `handleAddTodo` (TodoList.tsx:59).
 */
module Page {
  import opened Wrappers
  import opened Api
  import TodoList
  import TodoForm

  /** Feeds every todo the form reports to the list, in order. */
  function AddAll(st: TodoList.ListState, added: seq<Todo>): (r: TodoList.ListState)
    ensures |r.todos| == |st.todos| + |added|
    ensures r.todos[|added|..] == st.todos
    ensures forall i :: 0 <= i < |added| ==> r.todos[i] == added[|added| - 1 - i]
    decreases |added|
  {
    if added == [] then st
    else AddAll(TodoList.AddTodo(st, added[0]), added[1..])
  }

  /** A successful submit puts the created todo at the head of the list; a failed one leaves the list alone. */
  lemma SubmitReachesList(list: TodoList.ListState, form: TodoForm.FormState, created: Option<Todo>)
    ensures var f := TodoForm.FinishSubmit(TodoForm.BeginSubmit(form).state, created);
      var l := AddAll(list, f.added);
      && (created.Some? ==> l.todos == [created.value] + list.todos)
      && (created.None? ==> l == list)
  {
    var f := TodoForm.FinishSubmit(TodoForm.BeginSubmit(form).state, created);
    if created.Some? {
      var l := AddAll(list, f.added);
      assert l.todos == [l.todos[0]] + l.todos[1..];
    }
  }

  /**
   * Clicking a row's Delete button passes the row's own id to the list's
   * `handleDeleteTodo` (TodoItem.tsx:50, TodoList.tsx:42-49): once the
   * request succeeds, exactly that row has left the list.
   */
  lemma DeleteClickRemovesRow(st: TodoList.ListState, t: Todo)
    requires TodoList.UniqueIds(st.todos) && t in st.todos
    ensures multiset(TodoList.DeleteTodo(st, t.id, true).todos)
      == multiset(st.todos) - multiset{t}
  {
    TodoList.RemoveListedTodo(st.todos, t);
  }
}

=== FILE: secretary.dfy ===
/**
 * The MCP tools of the assistant (secretary/secretary.py). `make_api_request`
 * is abstracted to its outcome: the request raised (a transport error, an
 * error status or an undecodable body), returned an empty body, or returned
 * a decoded value. A todo is a dictionary from key to the text Python's
 * f-string renders for its value.
 */
module Secretary {
  import opened Wrappers
  import opened Digits

  type Dict = map<string, string>

  /** `API_BASE` (secretary.py:9). */
  const ApiBase: string := "http://localhost:8080/api"

  const FetchFailed: string := "Unable to fetch tasks."
  const NoTasks: string := "No tasks found."
  const CreateFailed: string := "Failed to create task."
  const CreatedPrefix: string := "Task created successfully:\n"
  const UpdatedPrefix: string := "Task updated successfully:\n"
  const Separator: string := "\n---\n"

  /** What the HTTP exchange came to. */
  datatype HttpOutcome<T> = Raised | EmptyBody | Body(value: T)

  /** A request the tool issues: HTTP method, URL and JSON body. */
  datatype Request = Request(verb: string, url: string, body: Option<Dict>)

  /** A tool's request and the text it replies with. */
  datatype ToolReply = ToolReply(request: Request, reply: string)

  /** `make_api_request` (secretary.py:12-34): `None` on any exception or empty body. */
  function MakeApiRequest<T>(outcome: HttpOutcome<T>): (r: Option<T>)
    ensures r.Some? <==> outcome.Body?
    ensures r.Some? ==> r.value == outcome.value
  {
    match outcome
    case Body(v) => Some(v)
    case _ => None
  }

  // ---------------------------------------------------------------- text

  /** `todo.get(key, default)`. */
  function Lookup(d: Dict, key: string, default: string): string {
    if key in d then d[key] else default
  }

  /** `format_todo` (secretary.py:36-43): the triple-quoted f-string, which begins and ends with a newline. */
  function FormatTodo(d: Dict): (r: string)
    ensures |r| > 0 && r[0] == '\n' && r[|r| - 1] == '\n'
  {
    Block(
      Lookup(d, "title", "Unknown"), Lookup(d, "description", "No description"),
      Lookup(d, "status", "Unknown"), Lookup(d, "due_date", "No due date"))
  }

  /**
   * For every todo, the block is the four labelled lines joined by
   * newlines between an empty first and last line; a value that spans
   * lines is shown as it is.
   */
  lemma FormatTodoJoin(d: Dict)
    ensures FormatTodo(d) == Join("\n", [
      "",
      "Title: " + Lookup(d, "title", "Unknown"),
      "Description: " + Lookup(d, "description", "No description"),
      "Status: " + Lookup(d, "status", "Unknown"),
      "Due Date: " + Lookup(d, "due_date", "No due date"),
      ""])
  {
    BlockIsJoin(
      Lookup(d, "title", "Unknown"), Lookup(d, "description", "No description"),
      Lookup(d, "status", "Unknown"), Lookup(d, "due_date", "No due date"));
  }

  /**
   * When no value spans lines, the block's lines are an empty one, the four
   * labelled lines in order, and an empty one; each line carries the value
   * when the key is present and the default only when it is absent.
   */
  lemma FormatTodoLines(d: Dict)
    requires SingleLine(d)
    ensures Lines(FormatTodo(d)) == [
      "",
      "Title: " + Lookup(d, "title", "Unknown"),
      "Description: " + Lookup(d, "description", "No description"),
      "Status: " + Lookup(d, "status", "Unknown"),
      "Due Date: " + Lookup(d, "due_date", "No due date"),
      ""]
  {
    BlockLines(
      Lookup(d, "title", "Unknown"), Lookup(d, "description", "No description"),
      Lookup(d, "status", "Unknown"), Lookup(d, "due_date", "No due date"));
  }

  /** The f-string's text for the four rendered values. */
  function Block(title: string, description: string, status: string, dueDate: string): (r: string)
    ensures |r| > 0 && r[0] == '\n' && r[|r| - 1] == '\n'
  {
    "\n" + ("Title: " + title) + "\n" + ("Description: " + description)
    + "\n" + ("Status: " + status) + "\n" + ("Due Date: " + dueDate) + "\n"
  }

  /** The lines of a text, split at every newline. */
  function Lines(s: string): (r: seq<string>)
    ensures |r| >= 1
    decreases |s|
  {
    if '\n' !in s then [s]
    else
      var i := FirstNewline(s);
      [s[..i]] + Lines(s[i + 1..])
  }

  function FirstNewline(s: string): (i: nat)
    requires '\n' in s
    ensures i < |s| && s[i] == '\n' && '\n' !in s[..i]
  {
    if s[0] == '\n' then 0
    else
      assert s == [s[0]] + s[1..];
      var j := FirstNewline(s[1..]);
      assert s[..j + 1] == [s[0]] + s[1..][..j];
      j + 1
  }

  lemma LinesCons(a: string, b: string)
    requires '\n' !in a
    ensures Lines(a + "\n" + b) == [a] + Lines(b)
  {
    var s := a + "\n" + b;
    assert s[|a|] == '\n';
    var i := FirstNewline(s);
    assert forall j :: 0 <= j < |a| ==> s[j] == a[j];
    assert forall j :: 0 <= j < i ==> s[..i][j] == s[j];
    assert i == |a|;
    assert s[..i] == a;
    assert s[i + 1..] == b;
  }

  /** Joining single-line texts with newlines and splitting the result again gives the texts back. */
  lemma {:induction false} LinesOfJoin(parts: seq<string>)
    requires |parts| >= 1
    requires forall i :: 0 <= i < |parts| ==> '\n' !in parts[i]
    ensures Lines(Join("\n", parts)) == parts
    decreases |parts|
  {
    if |parts| == 1 {
      assert Join("\n", parts) == parts[0];
    } else {
      var rest := parts[1..];
      assert forall i :: 0 <= i < |rest| ==> rest[i] == parts[i + 1];
      LinesOfJoin(rest);
      assert Join("\n", parts) == parts[0] + "\n" + Join("\n", rest);
      LinesCons(parts[0], Join("\n", rest));
      assert parts == [parts[0]] + rest;
    }
  }

  /** A present value for `key` does not span lines. */
  predicate OneLineAt(d: Dict, key: string) {
    key in d ==> '\n' !in d[key]
  }

  /** None of the four values `format_todo` shows spans lines; other keys may. */
  predicate SingleLine(d: Dict) {
    OneLineAt(d, "title") && OneLineAt(d, "description") && OneLineAt(d, "status") && OneLineAt(d, "due_date")
  }

  lemma BlockIsJoin(a: string, b: string, c: string, e: string)
    ensures Block(a, b, c, e)
      == Join("\n", ["", "Title: " + a, "Description: " + b, "Status: " + c, "Due Date: " + e, ""])
  {
    var parts := ["", "Title: " + a, "Description: " + b, "Status: " + c, "Due Date: " + e, ""];
    var nl := "\n";
    var j4 := parts[4] + nl + "";
    var j3 := parts[3] + nl + j4;
    var j2 := parts[2] + nl + j3;
    var j1 := parts[1] + nl + j2;
    assert Join(nl, parts[4..]) == j4;
    assert Join(nl, parts[3..]) == j3;
    assert Join(nl, parts[2..]) == j2;
    assert Join(nl, parts[1..]) == j1;
    assert Join(nl, parts) == "" + nl + j1;
    assert "" + nl + j1 == nl + parts[1] + nl + parts[2] + nl + parts[3] + nl + parts[4] + nl;
  }

  /** Neither part of a concatenation spans lines, so neither does the whole. */
  lemma OneLine(a: string, b: string)
    requires '\n' !in a && '\n' !in b
    ensures '\n' !in a + b
  {
    forall i | 0 <= i < |a + b| ensures (a + b)[i] != '\n' {
      if i < |a| {
        assert (a + b)[i] == a[i];
      } else {
        assert (a + b)[i] == b[i - |a|];
      }
    }
  }

  /** Values that do not span lines come back, one labelled line each, when the block is split. */
  lemma BlockLines(a: string, b: string, c: string, e: string)
    ensures '\n' !in a && '\n' !in b && '\n' !in c && '\n' !in e ==>
      Lines(Block(a, b, c, e)) == ["", "Title: " + a, "Description: " + b, "Status: " + c, "Due Date: " + e, ""]
  {
    if '\n' !in a && '\n' !in b && '\n' !in c && '\n' !in e {
      var parts := ["", "Title: " + a, "Description: " + b, "Status: " + c, "Due Date: " + e, ""];
      OneLine("Title: ", a);
      OneLine("Description: ", b);
      OneLine("Status: ", c);
      OneLine("Due Date: ", e);
      forall i | 0 <= i < |parts| ensures '\n' !in parts[i] {
        if i == 0 || i == 5 {
          assert parts[i] == "";
        } else if i == 1 {
          assert parts[i] == "Title: " + a;
        } else if i == 2 {
          assert parts[i] == "Description: " + b;
        } else if i == 3 {
          assert parts[i] == "Status: " + c;
        } else {
          assert parts[i] == "Due Date: " + e;
        }
      }
      BlockIsJoin(a, b, c, e);
      LinesOfJoin(parts);
    }
  }

  /** A present value always shows, even when it reads like the default. */
  lemma LookupPresent(d: Dict, key: string, default: string)
    requires key in d
    ensures Lookup(d, key, default) == d[key]
  {
  }

  /** `sep.join(parts)`. */
  function Join(sep: string, parts: seq<string>): string
    decreases |parts|
  {
    if parts == [] then ""
    else if |parts| == 1 then parts[0]
    else parts[0] + sep + Join(sep, parts[1..])
  }

  function FormatAll(ds: seq<Dict>): (r: seq<string>)
    ensures |r| == |ds|
    ensures forall i :: 0 <= i < |ds| ==> r[i] == FormatTodo(ds[i])
  {
    if ds == [] then [] else [FormatTodo(ds[0])] + FormatAll(ds[1..])
  }

  // ---------------------------------------------------------------- tools

  /**
   * `list_tasks` (secretary.py:45-54), with the second emptiness test kept
   * as written. The reply reports a failed fetch exactly when the request
   * gave nothing or an empty list, so "No tasks found." is never replied;
   * otherwise it begins with the first todo's block.
   */
  function ListTasks(outcome: HttpOutcome<seq<Dict>>): (r: string)
    ensures r == FetchFailed <==> !outcome.Body? || outcome.value == []
    ensures r != NoTasks
    ensures outcome.Body? && outcome.value != [] ==>
      var first := FormatTodo(outcome.value[0]);
      |r| >= |first| && r[..|first|] == first
  {
    var data := MakeApiRequest(outcome);
    if data.None? || data.value == [] then FetchFailed
    else if data.value == [] then NoTasks
    else
      var parts := FormatAll(data.value);
      JoinStartsWithFirst(parts);
      assert FetchFailed[0] != '\n' && NoTasks[0] != '\n';
      Join(Separator, parts)
  }

  lemma {:induction false} JoinStartsWithFirst(parts: seq<string>)
    requires |parts| >= 1
    ensures |Join(Separator, parts)| >= |parts[0]|
    ensures Join(Separator, parts)[..|parts[0]|] == parts[0]
    decreases |parts|
  {
    if |parts| > 1 {
      JoinStartsWithFirst(parts[1..]);
      var j := Join(Separator, parts);
      assert j == parts[0] + (Separator + Join(Separator, parts[1..]));
    }
  }

  /** One todo lists as its block alone; each further todo appends a separator and its block, keeping input order. */
  lemma ListTasksAppend(ds: seq<Dict>, d: Dict)
    ensures ListTasks(Body([d])) == FormatTodo(d)
    ensures ds != [] ==> ListTasks(Body(ds + [d])) == ListTasks(Body(ds)) + Separator + FormatTodo(d)
  {
    FormatAllAppend([], d);
    if ds != [] {
      FormatAllAppend(ds, d);
      JoinAppend(FormatAll(ds), FormatTodo(d));
    }
  }

  lemma {:induction false} FormatAllAppend(ds: seq<Dict>, d: Dict)
    ensures FormatAll(ds + [d]) == FormatAll(ds) + [FormatTodo(d)]
    decreases |ds|
  {
    if ds == [] {
      assert ds + [d] == [d];
    } else {
      assert (ds + [d])[1..] == ds[1..] + [d];
      FormatAllAppend(ds[1..], d);
    }
  }

  lemma {:induction false} JoinAppend(parts: seq<string>, last: string)
    requires parts != []
    ensures Join(Separator, parts + [last]) == Join(Separator, parts) + Separator + last
    decreases |parts|
  {
    if |parts| == 1 {
      assert parts + [last] == [parts[0], last];
    } else {
      assert (parts + [last])[1..] == parts[1..] + [last];
      JoinAppend(parts[1..], last);
    }
  }

  /**
   * `create_task` (secretary.py:56-74): a POST of the caller's three fields
   * under the API's names, with status `pending` added.
   */
  function CreateTask(title: string, description: string, dueDate: string, outcome: HttpOutcome<Dict>): (r: ToolReply)
    ensures r.request.verb == "POST" && r.request.url == ApiBase + "/todos"
    ensures r.request.body == Some(map["title" := title, "description" := description, "due_date" := dueDate, "status" := "pending"])
  {
    var body := map["title" := title, "description" := description, "due_date" := dueDate, "status" := "pending"];
    var response := MakeApiRequest(outcome);
    var reply :=
      if response.None? || response.value == map[] then CreateFailed
      else CreatedPrefix + FormatTodo(response.value);
    ToolReply(Request("POST", ApiBase + "/todos", Some(body)), reply)
  }

  /** The reply is the failure text exactly when no non-empty todo came back; otherwise it is the prefix and the formatted todo. */
  lemma CreateTaskReply(title: string, description: string, dueDate: string, outcome: HttpOutcome<Dict>)
    ensures var s := CreateTask(title, description, dueDate, outcome).reply;
      && (s == CreateFailed <==> !outcome.Body? || outcome.value == map[])
      && (outcome.Body? && outcome.value != map[] ==>
            s[..|CreatedPrefix|] == CreatedPrefix && s[|CreatedPrefix|..] == FormatTodo(outcome.value))
  {
    var s := CreateTask(title, description, dueDate, outcome).reply;
    if outcome.Body? && outcome.value != map[] {
      assert s[..|CreatedPrefix|] == CreatedPrefix;
      assert s[4] != CreateFailed[4];
    }
  }

  // ---------------------------------------------------------------- update

  /** `update_task_status` (secretary.py:76-88): the body carries only the status. */
  function UpdateTaskStatus(taskId: int, status: string, outcome: HttpOutcome<Dict>): (r: ToolReply)
    ensures r.request.verb == "PUT"
    ensures r.request.body == Some(map["status" := status])
  {
    var url := ApiBase + "/todos/" + IntText(taskId);
    var response := MakeApiRequest(outcome);
    var reply :=
      if response.None? || response.value == map[] then "Failed to update task " + IntText(taskId) + "."
      else UpdatedPrefix + FormatTodo(response.value);
    ToolReply(Request("PUT", url, Some(map["status" := status])), reply)
  }

  function UpdateFailed(taskId: int): string {
    "Failed to update task " + IntText(taskId) + "."
  }

  /** The request's URL ends in the task id, which reads back unchanged. */
  lemma UpdateTaskUrl(taskId: int, status: string, outcome: HttpOutcome<Dict>)
    ensures var url := UpdateTaskStatus(taskId, status, outcome).request.url;
      var base := ApiBase + "/todos/";
      && |url| > |base| && url[..|base|] == base
      && IntValue(url[|base|..]) == Some(taskId)
  {
    var url := UpdateTaskStatus(taskId, status, outcome).request.url;
    var base := ApiBase + "/todos/";
    assert url == base + IntText(taskId);
    assert url[|base|..] == IntText(taskId);
    IntTextRoundTrip(taskId);
  }

  /** The reply is the failure text exactly when no non-empty todo came back; otherwise it is the prefix and the formatted todo. */
  lemma UpdateTaskReply(taskId: int, status: string, outcome: HttpOutcome<Dict>)
    ensures var s := UpdateTaskStatus(taskId, status, outcome).reply;
      && (s == UpdateFailed(taskId) <==> !outcome.Body? || outcome.value == map[])
      && (outcome.Body? && outcome.value != map[] ==>
            s[..|UpdatedPrefix|] == UpdatedPrefix && s[|UpdatedPrefix|..] == FormatTodo(outcome.value))
  {
    var s := UpdateTaskStatus(taskId, status, outcome).reply;
    if outcome.Body? && outcome.value != map[] {
      assert s[..|UpdatedPrefix|] == UpdatedPrefix;
      assert s[0] != UpdateFailed(taskId)[0];
    }
  }

  /** A failed update names the task: different ids give different failure texts. */
  lemma UpdateFailureNamesTask(taskId: int, other: int)
    requires other != taskId
    ensures UpdateFailed(taskId) != UpdateFailed(other)
  {
    var p := "Failed to update task ";
    IntTextInjective(taskId, other);
    var a := UpdateFailed(taskId);
    var b := UpdateFailed(other);
    if a == b {
      assert a[|p|..|a| - 1] == IntText(taskId);
      assert b[|p|..|b| - 1] == IntText(other);
    }
  }

  /** Every tool answers an exception and an empty body alike. */
  lemma FailuresLookAlike(title: string, description: string, dueDate: string, taskId: int, status: string)
    ensures ListTasks(Raised) == ListTasks(EmptyBody) == FetchFailed
    ensures CreateTask(title, description, dueDate, Raised).reply == CreateTask(title, description, dueDate, EmptyBody).reply == CreateFailed
    ensures UpdateTaskStatus(taskId, status, Raised).reply == UpdateTaskStatus(taskId, status, EmptyBody).reply
  {
  }
}

=== FILE: todo_form.dfy ===
/**
 * The creation form (client/src/components/TodoForm.tsx): three text
 * fields, a loading flag and an error message. Submitting is split at the
 * `await`: `BeginSubmit` is what happens before the REST call resolves and
 * `FinishSubmit` what happens after, with the call's outcome as input.
 */
module TodoForm {
  import opened Wrappers
  import opened Api

  const CreateError: string := "Failed to create todo"

  datatype FormData = FormData(title: string, description: string, dueDate: string)

  /** The `name` attributes of the three inputs. */
  datatype Field = Title | Description | DueDate

  datatype FormState = FormState(data: FormData, loading: bool, error: Option<string>)

  const Empty: FormData := FormData("", "", "")

  /** The component's first render (TodoForm.tsx:11-17). */
  function Initial(): FormState {
    FormState(Empty, false, None)
  }

  function Get(d: FormData, f: Field): string {
    match f
    case Title => d.title
    case Description => d.description
    case DueDate => d.dueDate
  }

  /** `handleChange` (TodoForm.tsx:35-38): set the named field, keep the others. */
  function HandleChange(st: FormState, f: Field, value: string): (r: FormState)
    ensures Get(r.data, f) == value
    ensures forall g :: g != f ==> Get(r.data, g) == Get(st.data, g)
    ensures r.loading == st.loading && r.error == st.error
  {
    var d := match f
      case Title => st.data.(title := value)
      case Description => st.data.(description := value)
      case DueDate => st.data.(dueDate := value);
    st.(data := d)
  }

  /** A state and the request body `createTodo` is called with. */
  datatype Submitted = Submitted(state: FormState, request: TodoInput)

  /** `handleSubmit` up to the `await` (TodoForm.tsx:19-24). */
  function BeginSubmit(st: FormState): (r: Submitted)
    ensures r.state.loading && r.state.error.None? && r.state.data == st.data
    ensures r.request == TodoInput(st.data.title, st.data.description, st.data.dueDate)
  {
    Submitted(
      FormState(st.data, true, None),
      TodoInput(st.data.title, st.data.description, st.data.dueDate))
  }

  /** A state and the todos handed to `onAddTodo`, in call order. */
  datatype Finished = Finished(state: FormState, added: seq<Todo>)

  /** `handleSubmit` after the `await` (TodoForm.tsx:24-32). */
  function FinishSubmit(st: FormState, created: Option<Todo>): (r: Finished)
    ensures !r.state.loading
    ensures created.Some? ==> r.added == [created.value] && r.state.data == Empty && r.state.error == st.error
    ensures created.None? ==> r.added == [] && r.state.data == st.data && r.state.error == Some(CreateError)
  {
    match created
    case Some(todo) => Finished(FormState(Empty, false, st.error), [todo])
    case None => Finished(FormState(st.data, false, Some(CreateError)), [])
  }

  /** A whole submit: the error is cleared first, so only this call's failure can show. */
  lemma SubmitOutcome(st: FormState, created: Option<Todo>)
    ensures var r := FinishSubmit(BeginSubmit(st).state, created);
      && !r.state.loading
      && (r.state.error.Some? <==> created.None?)
      && |r.added| <= 1
      && (created.Some? ==> r.state == Initial())
      && (created.None? ==> r.state.data == st.data)
  {
  }

  /** A change to one field followed by a change to another: both stick. */
  lemma ChangesCommute(st: FormState, f: Field, a: string, g: Field, b: string)
    requires f != g
    ensures HandleChange(HandleChange(st, f, a), g, b) == HandleChange(HandleChange(st, g, b), f, a)
  {
    var x := HandleChange(HandleChange(st, f, a), g, b);
    var y := HandleChange(HandleChange(st, g, b), f, a);
    assert forall h :: Get(x.data, h) == Get(y.data, h);
    assert x.data == FormData(Get(x.data, Title), Get(x.data, Description), Get(x.data, DueDate));
    assert y.data == FormData(Get(y.data, Title), Get(y.data, Description), Get(y.data, DueDate));
  }
}

=== FILE: todo_item.dfy ===
/**
 * One row of the list (client/src/components/TodoItem.tsx): the status
 * toggle, the toggle button's label and the status-change callback. The
 * delete callback, which passes the row's own id, is followed into the
 * list in `Page.DeleteClickRemovesRow`.
 * The status is the text the server sent, which need not be one of the two
 * values the client's type admits.
 */
module TodoItem {
  import opened Api

  predicate ValidStatus(status: string) {
    status == Pending || status == Completed
  }

  /** The status `toggleStatus` asks for (TodoItem.tsx:13). */
  function Toggle(status: string): (r: string)
    ensures ValidStatus(r)
    ensures r != status <== ValidStatus(status)
  {
    if status == Pending then Completed else Pending
  }

  /** The argument pair of the status-change callback (TodoItem.tsx:12-15). */
  datatype StatusChange = StatusChange(id: int, status: string)

  function ToggleStatus(todo: Todo): (r: StatusChange)
    ensures r.id == todo.id
    ensures ValidStatus(r.status) && r.status != todo.status <== ValidStatus(todo.status)
  {
    StatusChange(todo.id, Toggle(todo.status))
  }

  /** The status a label promises to set. */
  function Promised(caption: string): string {
    if caption == "Mark Pending" then Pending else Completed
  }

  /**
   * The toggle button's text (TodoItem.tsx:47): one of the two captions,
   * and it names the status the click sets exactly when the current
   * status is one of the two valid ones.
   */
  function Label(status: string): (r: string)
    ensures r == "Mark Pending" || r == "Mark Complete"
    ensures Promised(r) == Toggle(status) <==> ValidStatus(status)
  {
    if status == Completed then "Mark Pending" else "Mark Complete"
  }

  /** Toggling twice restores a valid status. */
  lemma ToggleTwice(status: string)
    requires ValidStatus(status)
    ensures Toggle(Toggle(status)) == status
  {
  }

  /** For the two valid statuses the label names exactly the status the click sets. */
  lemma LabelMatchesToggle(status: string)
    requires ValidStatus(status)
    ensures Promised(Label(status)) == Toggle(status)
    ensures Label(status) == "Mark Pending" <==> status == Completed
  {
  }

  /**
   * For any other status the label offers to complete the todo while the
   * click sets it back to pending.
   */
  lemma LabelMisleadsOnOtherStatus(status: string)
    requires !ValidStatus(status)
    ensures Label(status) == "Mark Complete"
    ensures Toggle(status) == Pending
    ensures Promised(Label(status)) != Toggle(status)
  {
  }
}

=== FILE: todo_list.dfy ===
/**
 * The list component's state (client/src/components/TodoList.tsx): the
 * todos shown, the loading flag and the error banner, changed by four
 * handlers. Every REST call is an input: `Some(value)` or `true` when the
 * call resolved, `None` or `false` when it threw.
 */
module TodoList {
  import opened Wrappers
  import opened Api

  const LoadError: string := "Failed to load todos"
  const UpdateError: string := "Failed to update todo"
  const DeleteError: string := "Failed to delete todo"

  datatype ListState = ListState(todos: seq<Todo>, loading: bool, error: Option<string>)

  /** The component's first render (TodoList.tsx:9-11). */
  function Initial(): ListState {
    ListState([], true, None)
  }

  predicate HasId(s: seq<Todo>, id: int) {
    exists i :: 0 <= i < |s| && s[i].id == id
  }

  /** No two entries share an id. */
  predicate UniqueIds(s: seq<Todo>) {
    forall i, j :: 0 <= i < j < |s| ==> s[i].id != s[j].id
  }

  /** `fetchTodos` (TodoList.tsx:13-23): replace wholesale, or keep and report. */
  function FetchTodos(st: ListState, fetched: Option<seq<Todo>>): (r: ListState)
    ensures !r.loading
    ensures fetched.Some? ==> r.todos == fetched.value && r.error.None?
    ensures fetched.None? ==> r.todos == st.todos && r.error == Some(LoadError)
  {
    match fetched
    case Some(data) => ListState(data, false, None)
    case None => st.(loading := false, error := Some(LoadError))
  }

  /** `handleAddTodo` (TodoList.tsx:29-31): prepend, with no check for a duplicate id. */
  function AddTodo(st: ListState, todo: Todo): (r: ListState)
    ensures |r.todos| == |st.todos| + 1
    ensures r.todos[0] == todo && r.todos[1..] == st.todos
    ensures r.loading == st.loading && r.error == st.error
  {
    st.(todos := [todo] + st.todos)
  }

  /** The list left after a successful delete: `prev.filter(todo => todo.id !== id)`. */
  function RemoveId(s: seq<Todo>, id: int): (r: seq<Todo>)
    ensures |r| <= |s|
    ensures forall t :: t in r ==> t in s && t.id != id
  {
    if s == [] then []
    else if s[0].id == id then RemoveId(s[1..], id)
    else [s[0]] + RemoveId(s[1..], id)
  }

  /** `handleDeleteTodo` (TodoList.tsx:42-49). */
  function DeleteTodo(st: ListState, id: int, deleted: bool): (r: ListState)
    ensures r.loading == st.loading
    ensures deleted ==> r.todos == RemoveId(st.todos, id) && r.error == st.error
    ensures !deleted ==> r.todos == st.todos && r.error == Some(DeleteError)
  {
    if deleted then st.(todos := RemoveId(st.todos, id))
    else st.(error := Some(DeleteError))
  }

  /** The state after `handleUpdateTodo`, and whether it started a refetch. */
  datatype UpdateReaction = UpdateReaction(state: ListState, refetch: bool)

  /**
   * `handleUpdateTodo` (TodoList.tsx:33-40). The list is never edited here:
   * on success the only change to come is the un-awaited `fetchTodos`,
   * whose completion is a separate `FetchDone` event.
   */
  function UpdateTodo(st: ListState, id: int, status: string, updated: bool): (r: UpdateReaction)
    ensures r.state.todos == st.todos && r.state.loading == st.loading
    ensures r.refetch <==> updated
    ensures updated ==> r.state.error == st.error
    ensures !updated ==> r.state.error == Some(UpdateError)
  {
    if updated then UpdateReaction(st, true)
    else UpdateReaction(st.(error := Some(UpdateError)), false)
  }

  /** The inputs that reach the list: handler calls and the completion of a fetch. */
  datatype ListEvent =
    | FetchDone(fetched: Option<seq<Todo>>)
    | Added(todo: Todo)
    | Updated(id: int, status: string, updated: bool)
    | Deleted(id: int, deleted: bool)

  function Step(st: ListState, e: ListEvent): ListState {
    match e
    case FetchDone(f) => FetchTodos(st, f)
    case Added(t) => AddTodo(st, t)
    case Updated(id, s, ok) => UpdateTodo(st, id, s, ok).state
    case Deleted(id, ok) => DeleteTodo(st, id, ok)
  }

  /** An event whose REST call threw. */
  predicate Failed(e: ListEvent) {
    match e
    case FetchDone(f) => f.None?
    case Added(_) => false
    case Updated(_, _, ok) => !ok
    case Deleted(_, ok) => !ok
  }

  /** A failed call never changes the list and always raises an error. */
  lemma FailureKeepsList(st: ListState, e: ListEvent)
    requires Failed(e)
    ensures Step(st, e).todos == st.todos
    ensures Step(st, e).error.Some?
  {
  }

  /** Removing an id keeps every other entry with its multiplicity and drops every entry with that id. */
  lemma {:induction false} RemoveIdCounts(s: seq<Todo>, id: int)
    ensures forall t :: multiset(RemoveId(s, id))[t] == if t.id == id then 0 else multiset(s)[t]
  {
    if s != [] {
      RemoveIdCounts(s[1..], id);
      assert s == [s[0]] + s[1..];
    }
  }

  /** Removal distributes over concatenation, so the survivors keep their relative order. */
  lemma {:induction false} RemoveIdConcat(a: seq<Todo>, b: seq<Todo>, id: int)
    ensures RemoveId(a + b, id) == RemoveId(a, id) + RemoveId(b, id)
  {
    if a == [] {
      assert a + b == b;
    } else {
      assert (a + b)[0] == a[0];
      assert (a + b)[1..] == a[1..] + b;
      RemoveIdConcat(a[1..], b, id);
    }
  }

  /** With unique ids no todo is listed twice. */
  lemma {:induction false} ListedAtMostOnce(s: seq<Todo>, x: Todo)
    requires UniqueIds(s)
    ensures multiset(s)[x] <= 1
  {
    if s != [] {
      var rest := s[1..];
      assert UniqueIds(rest) by {
        forall i, j | 0 <= i < j < |rest| ensures rest[i].id != rest[j].id {
          assert s[i + 1].id != s[j + 1].id;
        }
      }
      ListedAtMostOnce(rest, x);
      assert s == [s[0]] + rest;
      if s[0] == x {
        forall i | 0 <= i < |rest| ensures rest[i] != x {
          assert s[0].id != s[i + 1].id;
        }
        assert x !in rest;
      }
    }
  }

  /** With unique ids, removing a listed todo's id removes that todo and nothing else. */
  lemma RemoveListedTodo(s: seq<Todo>, t: Todo)
    requires UniqueIds(s) && t in s
    ensures multiset(RemoveId(s, t.id)) == multiset(s) - multiset{t}
  {
    RemoveIdCounts(s, t.id);
    var j :| 0 <= j < |s| && s[j] == t;
    forall x ensures multiset(RemoveId(s, t.id))[x] == (multiset(s) - multiset{t})[x] {
      if x == t {
        ListedAtMostOnce(s, t);
      } else if x.id == t.id {
        forall i | 0 <= i < |s| ensures s[i] != x {
          if s[i].id == t.id {
            assert i == j;
          }
        }
        assert x !in s;
      }
    }
  }

  /** Removing an id nobody carries changes nothing. */
  lemma {:induction false} RemoveAbsentId(s: seq<Todo>, id: int)
    requires !HasId(s, id)
    ensures RemoveId(s, id) == s
  {
    if s != [] {
      assert s[0].id != id;
      forall i | 0 <= i < |s[1..]| ensures s[1..][i].id != id {
        assert s[1..][i] == s[i + 1];
      }
      RemoveAbsentId(s[1..], id);
      assert s == [s[0]] + s[1..];
    }
  }

  /** Removing is idempotent: a second delete of the same id finds nothing. */
  lemma RemoveIdIdempotent(s: seq<Todo>, id: int)
    ensures RemoveId(RemoveId(s, id), id) == RemoveId(s, id)
  {
    var r := RemoveId(s, id);
    forall i | 0 <= i < |r| ensures r[i].id != id {
      assert r[i] in r;
    }
    RemoveAbsentId(r, id);
  }

  /** A list with unique ids stays unique after a delete. */
  lemma {:induction false} RemoveIdKeepsUnique(s: seq<Todo>, id: int)
    requires UniqueIds(s)
    ensures UniqueIds(RemoveId(s, id))
  {
    if s != [] {
      assert UniqueIds(s[1..]) by {
        forall i, j | 0 <= i < j < |s[1..]| ensures s[1..][i].id != s[1..][j].id {
          assert s[i + 1].id != s[j + 1].id;
        }
      }
      RemoveIdKeepsUnique(s[1..], id);
      if s[0].id != id {
        var rest := RemoveId(s[1..], id);
        forall j | 0 <= j < |rest| ensures rest[j].id != s[0].id {
          assert rest[j] in rest;
          var k :| 0 <= k < |s[1..]| && s[1..][k] == rest[j];
          assert s[k + 1] == rest[j];
        }
      }
    }
  }

  /** Prepending keeps ids unique exactly when the new id was absent. */
  lemma AddKeepsUniqueIff(s: seq<Todo>, todo: Todo)
    requires UniqueIds(s)
    ensures UniqueIds([todo] + s) <==> !HasId(s, todo.id)
  {
    var r := [todo] + s;
    if HasId(s, todo.id) {
      var i :| 0 <= i < |s| && s[i].id == todo.id;
      assert r[0].id == r[i + 1].id;
    } else {
      forall i, j | 0 <= i < j < |r| ensures r[i].id != r[j].id {
        if i == 0 {
          assert r[j] == s[j - 1];
        } else {
          assert r[i] == s[i - 1] && r[j] == s[j - 1];
        }
      }
    }
  }

  /** Adding a todo that is already shown leaves two entries with its id. */
  lemma AddDuplicateDuplicates(s: seq<Todo>, todo: Todo)
    requires HasId(s, todo.id)
    ensures !UniqueIds(AddTodo(ListState(s, false, None), todo).todos)
  {
    var i :| 0 <= i < |s| && s[i].id == todo.id;
    var r := [todo] + s;
    assert r[0].id == r[i + 1].id;
  }

  /** Deleting a todo just added with a fresh id restores the list it was added to. */
  lemma DeleteUndoesFreshAdd(st: ListState, todo: Todo)
    requires !HasId(st.todos, todo.id)
    ensures DeleteTodo(AddTodo(st, todo), todo.id, true) == st
  {
    RemoveAbsentId(st.todos, todo.id);
    assert ([todo] + st.todos)[1..] == st.todos;
  }

  /**
   * Every step keeps ids unique, provided a fetch brings a list with
   * unique ids and an added todo's id is not yet shown.
   */
  lemma StepKeepsUnique(st: ListState, e: ListEvent)
    requires UniqueIds(st.todos)
    requires e.FetchDone? && e.fetched.Some? ==> UniqueIds(e.fetched.value)
    requires e.Added? ==> !HasId(st.todos, e.todo.id)
    ensures UniqueIds(Step(st, e).todos)
  {
    match e
    case FetchDone(_) =>
    case Added(t) => AddKeepsUniqueIff(st.todos, t);
    case Updated(_, _, _) =>
    case Deleted(id, ok) => if ok { RemoveIdKeepsUnique(st.todos, id); }
  }
}

=== FILE: todo_repository.dfy ===
/**
 * The server's todo repository (server/repository/todo_repository.go) over
 * an abstract `todos` table: a map from primary key to row, plus the next
 * value of the `SERIAL` sequence that hands out ids. Each SQL statement is
 * given its relational meaning; the clock (`CURRENT_TIMESTAMP`) is an
 * input, and timestamps are integers ordered like instants.
 */
module TodoRepository {
  import opened Wrappers
  import opened Digits

  const PendingStatus: string := "pending"
  /** The widths of `title VARCHAR(255)` and `status VARCHAR(50)` (server/db/db.go:44-46). */
  const TitleMax: nat := 255
  const StatusMax: nat := 50
  /** The range of Postgres's 4-byte `integer`, the type of `id SERIAL` (server/db/db.go:43). */
  const IntegerMin: int := -0x8000_0000
  const IntegerMax: int := 0x7fff_ffff

  predicate IsInteger(n: int) {
    IntegerMin <= n <= IntegerMax
  }

  /** Postgres refuses a text parameter holding the NUL character. */
  predicate HasNul(s: string) {
    '\0' in s
  }

  /**
   * Storing a text in a `VARCHAR(width)` column: a longer text is cut to
   * `width` characters when everything past them is blanks, and refused
   * otherwise.
   */
  function Fit(s: string, width: nat): (r: Option<string>)
    ensures r.Some? <==> forall i :: width <= i < |s| ==> s[i] == ' '
    ensures r.Some? ==> |r.value| <= width && |r.value| <= |s| && r.value == s[..|r.value|]
    ensures r.Some? ==> forall i :: |r.value| <= i < |s| ==> s[i] == ' '
    ensures |s| <= width ==> r == Some(s)
  {
    if forall i :: width <= i < |s| ==> s[i] == ' ' then
      Some(if |s| <= width then s else s[..width])
    else None
  }

  /** A calendar date, as `time.Parse` with layout `2006-01-02` yields it. */
  datatype Date = Date(year: nat, month: nat, day: nat)

  /** A row of the `todos` table (server/models/todo.go:7-15). */
  datatype Row = Row(
    id: int,
    title: string,
    description: string,
    status: string,
    dueDate: Date,
    createdAt: int,
    updatedAt: int
  )

  /** The create request (server/models/todo.go:17-22); its status is ignored. */
  datatype TodoInput = TodoInput(title: string, description: string, status: string, dueDate: string)

  datatype Table = Table(rows: map<int, Row>, nextId: int)

  /**
   * The repository's errors: an unparsable due date, no row with the id,
   * and a statement the database refused (`error creating todo: …` and its
   * siblings). The database refuses a value wider than its column beyond
   * trailing blanks, an id outside the `integer` range, a NUL character
   * in a text parameter, and a `SERIAL` sequence past its maximum.
   */
  datatype RepoError = InvalidDateFormat | NotFound | StatementFailed

  /** A table after a write, and the row the statement returned. */
  datatype Written = Written(table: Table, row: Row)

  /**
   * The integrity the schema keeps: `id` is the primary key, the `SERIAL`
   * sequence starts at 1, is ahead of every id it handed out and never
   * hands out more than the `integer` maximum, and no title or status is
   * wider than its column.
   */
  predicate Valid(t: Table) {
    && 1 <= t.nextId <= IntegerMax + 1
    && forall k :: k in t.rows ==>
      && 1 <= k < t.nextId
      && t.rows[k].id == k
      && |t.rows[k].title| <= TitleMax
      && |t.rows[k].status| <= StatusMax
  }

  /** The empty table that `CREATE TABLE` makes. */
  function EmptyTable(): (t: Table)
    ensures Valid(t) && t.rows == map[]
  {
    Table(map[], 1)
  }

  // ---------------------------------------------------------------- dates

  predicate LeapYear(y: nat) {
    y % 4 == 0 && (y % 100 != 0 || y % 400 == 0)
  }

  function DaysIn(month: nat, year: nat): nat
    requires 1 <= month <= 12
  {
    if month == 2 then (if LeapYear(year) then 29 else 28)
    else if month == 4 || month == 6 || month == 9 || month == 11 then 30
    else 31
  }

  /** A date the layout can express and the calendar has. */
  predicate ValidDate(d: Date) {
    && d.year < 10000
    && 1 <= d.month <= 12
    && 1 <= d.day <= DaysIn(d.month, d.year)
  }

  /**
   * `time.Parse("2006-01-02", s)` (todo_repository.go:37-40): four year
   * digits, a dash, two month digits, a dash, two day digits and nothing
   * else; the month in 1..12 and the day within that month.
   */
  function ParseDate(s: string): (r: Option<Date>)
    ensures r.Some? ==> ValidDate(r.value)
  {
    if |s| == 10 && s[4] == '-' && s[7] == '-'
       && AllDigits(s[..4]) && AllDigits(s[5..7]) && AllDigits(s[8..])
    then
      var d := Date(Number(s[..4]), Number(s[5..7]), Number(s[8..]));
      if ValidDate(d) then Some(d) else None
    else None
  }

  /** The layout `2006-01-02` applied to a date. */
  function FormatDate(d: Date): (s: string)
    ensures |s| == 10
  {
    Padded(d.year, 4) + "-" + Padded(d.month, 2) + "-" + Padded(d.day, 2)
  }

  /** Every valid date parses back from its own layout. */
  lemma ParseFormatDate(d: Date)
    requires ValidDate(d)
    ensures ParseDate(FormatDate(d)) == Some(d)
  {
    var s := FormatDate(d);
    assert s[..4] == Padded(d.year, 4);
    assert s[5..7] == Padded(d.month, 2);
    assert s[8..] == Padded(d.day, 2);
    NumberOfPadded(d.year, 4);
    NumberOfPadded(d.month, 2);
    NumberOfPadded(d.day, 2);
  }

  /** Every text that parses is the layout of the date it parses to: nothing else is accepted. */
  lemma FormatParseDate(s: string)
    requires ParseDate(s).Some?
    ensures FormatDate(ParseDate(s).value) == s
  {
    PaddedOfNumber(s[..4]);
    PaddedOfNumber(s[5..7]);
    PaddedOfNumber(s[8..]);
    assert s == s[..4] + "-" + s[5..7] + "-" + s[8..];
  }

  // ---------------------------------------------------------------- statements

  /**
   * `Create` (todo_repository.go:30-56): reject an unparsable due date;
   * then the `INSERT` fails when a text carries a NUL, the sequence is
   * exhausted, or the title does not fit its column. Otherwise one row is
   * inserted with the next serial id, the title as its column stores it,
   * status `pending` whatever the input says, and both timestamps `now`.
   */
  function Create(t: Table, input: TodoInput, now: int): (r: Result<Written, RepoError>)
    requires Valid(t)
    ensures r.Err? <==>
      || ParseDate(input.dueDate).None?
      || HasNul(input.title) || HasNul(input.description)
      || t.nextId > IntegerMax
      || Fit(input.title, TitleMax).None?
    ensures r.Err? ==> (r.error == InvalidDateFormat <==> ParseDate(input.dueDate).None?)
    ensures r.Err? && ParseDate(input.dueDate).Some? ==> r.error == StatementFailed
    ensures r.Ok? ==>
      var w := r.value;
      && w.row.id !in t.rows
      && w.table.rows == t.rows[w.row.id := w.row]
      && |w.table.rows| == |t.rows| + 1
      && Valid(w.table)
      && Fit(input.title, TitleMax) == Some(w.row.title)
      && w.row.description == input.description
      && w.row.status == PendingStatus
      && ParseDate(input.dueDate) == Some(w.row.dueDate)
      && w.row.createdAt == now && w.row.updatedAt == now
  {
    match ParseDate(input.dueDate)
    case None => Err(InvalidDateFormat)
    case Some(due) =>
      if HasNul(input.title) || HasNul(input.description) || t.nextId > IntegerMax then Err(StatementFailed)
      else match Fit(input.title, TitleMax)
      case None => Err(StatementFailed)
      case Some(title) =>
        var row := Row(t.nextId, title, input.description, PendingStatus, due, now, now);
        Ok(Written(Table(t.rows[t.nextId := row], t.nextId + 1), row))
  }

  /** `GetByID` (todo_repository.go:96-113): an id outside `integer` fails the query. */
  function GetByID(t: Table, id: int): (r: Result<Row, RepoError>)
    ensures !IsInteger(id) ==> r == Err(StatementFailed)
    ensures IsInteger(id) ==>
      && (r.Err? <==> id !in t.rows)
      && (r.Err? ==> r.error == NotFound)
      && (r.Ok? ==> r.value == t.rows[id])
  {
    if !IsInteger(id) then Err(StatementFailed)
    else if id in t.rows then Ok(t.rows[id])
    else Err(NotFound)
  }

  /**
   * `Update` (todo_repository.go:115-137): set `status` and `updated_at` of
   * row `id`, and return the row. Values the database cannot take (an id
   * outside `integer`, a status with a NUL, a status that does not fit its
   * column) fail the statement before any row is matched, since the bound
   * values are folded into the plan; otherwise with no such row the
   * `UPDATE` matches nothing (`todo not found`).
   */
  function Update(t: Table, id: int, status: string, now: int): (r: Result<Written, RepoError>)
    ensures r.Err? <==> !IsInteger(id) || HasNul(status) || id !in t.rows || Fit(status, StatusMax).None?
    ensures r.Err? ==>
      (r.error == NotFound <==> IsInteger(id) && !HasNul(status) && Fit(status, StatusMax).Some? && id !in t.rows)
    ensures r.Ok? ==>
      var w := r.value;
      && Fit(status, StatusMax) == Some(w.row.status)
      && w.row == t.rows[id].(status := w.row.status, updatedAt := now)
      && w.table.rows == t.rows[id := w.row]
      && w.table.rows.Keys == t.rows.Keys
      && w.table.nextId == t.nextId
  {
    if !IsInteger(id) || HasNul(status) || Fit(status, StatusMax).None? then Err(StatementFailed)
    else if id !in t.rows then Err(NotFound)
    else
      var row := t.rows[id].(status := Fit(status, StatusMax).value, updatedAt := now);
      Ok(Written(t.(rows := t.rows[id := row]), row))
  }

  /** `Delete` (todo_repository.go:139-159): remove row `id`, or report that none matched. */
  function Delete(t: Table, id: int): (r: Result<Table, RepoError>)
    ensures !IsInteger(id) ==> r == Err(StatementFailed)
    ensures IsInteger(id) ==>
      && (r.Err? <==> id !in t.rows)
      && (r.Err? ==> r.error == NotFound)
    ensures r.Ok? ==> r.value.rows == t.rows - {id} && |r.value.rows| == |t.rows| - 1
    ensures r.Ok? ==> r.value.nextId == t.nextId
  {
    if !IsInteger(id) then Err(StatementFailed)
    else if id in t.rows then Ok(t.(rows := t.rows - {id}))
    else Err(NotFound)
  }

  // ---------------------------------------------------------------- listing

  /** The `WHERE` clause of `List`: none for the empty filter (todo_repository.go:67-73). */
  predicate Selected(row: Row, status: string) {
    status == "" || row.status == status
  }

  /** `ORDER BY created_at DESC`. */
  predicate NewestFirst(r: seq<Row>) {
    forall i, j :: 0 <= i < j < |r| ==> r[i].createdAt >= r[j].createdAt
  }

  predicate DistinctIds(r: seq<Row>) {
    forall i, j :: 0 <= i < j < |r| ==> r[i].id != r[j].id
  }

  /**
   * What `List(status)` may return: every selected row exactly once, only
   * selected rows, newest first. Rows created at the same instant may come
   * in any order, as SQL leaves them.
   */
  predicate IsListing(t: Table, status: string, r: seq<Row>) {
    && NewestFirst(r)
    && DistinctIds(r)
    && (forall i :: 0 <= i < |r| ==> r[i].id in t.rows && t.rows[r[i].id] == r[i] && Selected(r[i], status))
    && (forall k :: k in t.rows && Selected(t.rows[k], status) ==> t.rows[k] in r)
  }

  /** Where `row` goes in a newest-first list: after every strictly newer row. */
  function InsertPos(r: seq<Row>, row: Row): (p: nat)
    requires NewestFirst(r)
    ensures p <= |r|
    ensures forall i :: 0 <= i < p ==> r[i].createdAt > row.createdAt
    ensures forall i :: p <= i < |r| ==> r[i].createdAt <= row.createdAt
  {
    if r == [] || r[0].createdAt <= row.createdAt then 0
    else 1 + InsertPos(r[1..], row)
  }

  function Insert(r: seq<Row>, row: Row): (r': seq<Row>)
    requires NewestFirst(r)
    ensures NewestFirst(r')
    ensures forall x :: x in r' <==> x in r || x == row
    ensures DistinctIds(r) && (forall i :: 0 <= i < |r| ==> r[i].id != row.id) ==> DistinctIds(r')
  {
    var p := InsertPos(r, row);
    InsertSorted(r, row, p);
    InsertDistinct(r, row, p);
    assert r == r[..p] + r[p..];
    r[..p] + [row] + r[p..]
  }

  /** Position by position, `row` sits at `p` and the rest of `r` shifts around it. */
  lemma InsertAt(r: seq<Row>, row: Row, p: nat)
    requires p <= |r|
    ensures var r' := r[..p] + [row] + r[p..];
      && |r'| == |r| + 1
      && (forall i :: 0 <= i < |r'| ==> r'[i] == if i < p then r[i] else if i == p then row else r[i - 1])
  {
  }

  lemma InsertSorted(r: seq<Row>, row: Row, p: nat)
    requires NewestFirst(r) && p <= |r|
    requires forall i :: 0 <= i < p ==> r[i].createdAt > row.createdAt
    requires forall i :: p <= i < |r| ==> r[i].createdAt <= row.createdAt
    ensures NewestFirst(r[..p] + [row] + r[p..])
  {
    InsertAt(r, row, p);
  }

  lemma InsertDistinct(r: seq<Row>, row: Row, p: nat)
    requires p <= |r|
    ensures DistinctIds(r) && (forall i :: 0 <= i < |r| ==> r[i].id != row.id) ==>
      DistinctIds(r[..p] + [row] + r[p..])
  {
    InsertAt(r, row, p);
  }

  /**
   * `List` (todo_repository.go:58-94). The scan visits the ids the
   * sequence has handed out, in increasing order; the result does not
   * depend on that order beyond the ties `ORDER BY` leaves open.
   */
  method List(t: Table, status: string) returns (result: Result<seq<Row>, RepoError>)
    requires Valid(t)
    ensures result.Err? <==> HasNul(status)
    ensures result.Err? ==> result.error == StatementFailed
    ensures result.Ok? ==> IsListing(t, status, result.value)
  {
    if HasNul(status) {
      return Err(StatementFailed);
    }
    assert IdsAreKeys(t);
    var r := [];
    var id := 1;
    while id < t.nextId
      invariant 1 <= id <= t.nextId
      invariant Scanned(t, status, r, id)
    {
      if id in t.rows && Selected(t.rows[id], status) {
        ScanInsert(t, status, r, id);
        r := Insert(r, t.rows[id]);
      } else {
        ScanSkip(t, status, r, id);
      }
      id := id + 1;
    }
    ScanDone(t, status, r, id);
    return Ok(r);
  }

  predicate IdsAreKeys(t: Table) {
    forall k :: k in t.rows ==> t.rows[k].id == k
  }

  /** The loop's invariant: `r` lists, newest first, exactly the selected rows with an id below `id`. */
  predicate Scanned(t: Table, status: string, r: seq<Row>, id: int) {
    && NewestFirst(r) && DistinctIds(r)
    && (forall x :: x in r ==> x.id in t.rows && x.id < id && t.rows[x.id] == x && Selected(x, status))
    && (forall k :: k in t.rows && k < id && Selected(t.rows[k], status) ==> t.rows[k] in r)
  }

  lemma ScanSkip(t: Table, status: string, r: seq<Row>, id: int)
    requires Scanned(t, status, r, id)
    requires !(id in t.rows && Selected(t.rows[id], status))
    ensures Scanned(t, status, r, id + 1)
  {
  }

  lemma ScanInsert(t: Table, status: string, r: seq<Row>, id: int)
    requires IdsAreKeys(t) && Scanned(t, status, r, id)
    requires id in t.rows && Selected(t.rows[id], status)
    ensures Scanned(t, status, Insert(r, t.rows[id]), id + 1)
  {
    var row := t.rows[id];
    forall i | 0 <= i < |r| ensures r[i].id != row.id {
      assert r[i] in r;
    }
    var r' := Insert(r, row);
    assert NewestFirst(r') && DistinctIds(r');
  }

  lemma ScanDone(t: Table, status: string, r: seq<Row>, id: int)
    requires Valid(t) && id == t.nextId && Scanned(t, status, r, id)
    ensures IsListing(t, status, r)
  {
    forall i | 0 <= i < |r|
      ensures r[i].id in t.rows && t.rows[r[i].id] == r[i] && Selected(r[i], status)
    {
      assert r[i] in r;
    }
  }

  // ---------------------------------------------------------------- properties

  /** A created row is found by its id. */
  lemma CreateThenGet(t: Table, input: TodoInput, now: int)
    requires Valid(t) && Create(t, input, now).Ok?
    ensures var w := Create(t, input, now).value; GetByID(w.table, w.row.id) == Ok(w.row)
  {
  }

  /** A created row is listed among the pending rows and among all rows. */
  lemma CreatedIsListed(t: Table, input: TodoInput, now: int, status: string, r: seq<Row>)
    requires Valid(t) && Create(t, input, now).Ok?
    requires status == "" || status == PendingStatus
    requires IsListing(Create(t, input, now).value.table, status, r)
    ensures Create(t, input, now).value.row in r
  {
    var w := Create(t, input, now).value;
    assert w.row.id in w.table.rows && w.table.rows[w.row.id] == w.row;
  }

  /** A non-empty filter lists only rows carrying that status. */
  lemma ListingFilters(t: Table, status: string, r: seq<Row>)
    requires status != "" && IsListing(t, status, r)
    ensures forall i :: 0 <= i < |r| ==> r[i].status == status
  {
  }

  /**
   * A title or status wider than its column by trailing blanks alone is
   * stored cut to the column's width rather than refused.
   */
  lemma TrailingBlanksAreCut(t: Table, input: TodoInput, id: int, status: string, now: int)
    requires Valid(t) && ParseDate(input.dueDate).Some?
    requires !HasNul(input.title) && !HasNul(input.description) && t.nextId <= IntegerMax
    requires |input.title| > TitleMax && forall i :: TitleMax <= i < |input.title| ==> input.title[i] == ' '
    requires id in t.rows && !HasNul(status)
    requires |status| > StatusMax && forall i :: StatusMax <= i < |status| ==> status[i] == ' '
    ensures Create(t, input, now).Ok? && Create(t, input, now).value.row.title == input.title[..TitleMax]
    ensures Update(t, id, status, now).Ok? && Update(t, id, status, now).value.row.status == status[..StatusMax]
  {
  }

  /**
   * An update whose status is too long for its column fails the statement
   * whether or not the row exists: the refusal comes before any row is matched.
   */
  lemma TooLongStatusFailsFirst(t: Table, id: int, status: string, now: int)
    requires IsInteger(id) && !HasNul(status)
    requires |status| > StatusMax && status[StatusMax] != ' '
    ensures Update(t, id, status, now) == Err(StatementFailed)
    ensures Update(t.(rows := t.rows - {id}), id, status, now) == Err(StatementFailed)
  {
    assert Fit(status, StatusMax).None?;
  }

  /** `Update` leaves every other row, and every other field of row `id`, as it was. */
  lemma UpdateTouchesOnlyStatus(t: Table, id: int, status: string, now: int)
    requires Update(t, id, status, now).Ok?
    ensures var u := Update(t, id, status, now).value.table;
      && (forall k :: k in t.rows && k != id ==> u.rows[k] == t.rows[k])
      && u.rows[id].id == t.rows[id].id
      && u.rows[id].title == t.rows[id].title
      && u.rows[id].description == t.rows[id].description
      && u.rows[id].dueDate == t.rows[id].dueDate
      && u.rows[id].createdAt == t.rows[id].createdAt
      && Fit(status, StatusMax) == Some(u.rows[id].status)
  {
  }

  /** Every write keeps the schema's integrity. */
  lemma WritesKeepValid(t: Table, id: int, status: string, now: int)
    requires Valid(t)
    ensures Update(t, id, status, now).Ok? ==> Valid(Update(t, id, status, now).value.table)
    ensures Delete(t, id).Ok? ==> Valid(Delete(t, id).value)
  {
  }

  /** A deleted row is gone, and deleting it again reports not found. */
  lemma DeleteThenGone(t: Table, id: int)
    requires Delete(t, id).Ok?
    ensures GetByID(Delete(t, id).value, id) == Err(NotFound)
    ensures Delete(Delete(t, id).value, id) == Err(NotFound)
  {
  }

  /** Deleting the row just created restores the rows, though the id is not reused. */
  lemma DeleteUndoesCreate(t: Table, input: TodoInput, now: int)
    requires Valid(t) && Create(t, input, now).Ok?
    ensures var w := Create(t, input, now).value;
      && Delete(w.table, w.row.id).Ok?
      && Delete(w.table, w.row.id).value.rows == t.rows
      && Delete(w.table, w.row.id).value.nextId == t.nextId + 1
  {
    var w := Create(t, input, now).value;
    assert w.table.rows - {w.row.id} == t.rows;
  }

  /** Two creates in a row never hand out the same id. */
  lemma CreatesGetDistinctIds(t: Table, a: TodoInput, b: TodoInput, now1: int, now2: int)
    requires Valid(t) && Create(t, a, now1).Ok?
    requires Create(Create(t, a, now1).value.table, b, now2).Ok?
    ensures Create(Create(t, a, now1).value.table, b, now2).value.row.id != Create(t, a, now1).value.row.id
  {
  }
}

=== FILE: websocket.dfy ===
/**
 * The browser's real-time client (client/src/lib/websocket.ts) as a pure
 * state machine. The socket runtime, `setTimeout` and the console are not
 * modelled: socket events and timer firings are inputs, and every
 * transition returns the next client state together with what it did
 * (a frame sent, a handler invoked, a reconnect timer scheduled).
 *
 * Each socket the client creates carries a fresh number, so that an event
 * raised by a socket the client no longer holds (after `disconnect`, or
 * after a later `connect` replaced it) is told apart from one raised by the
 * current socket. The closures installed on a socket capture the client,
 * not the socket, so such a stale event still acts on the client.
 */
module WebSocket {
  import opened Wrappers

  /** `maxReconnectAttempts` (websocket.ts:8). */
  const MaxReconnectAttempts: nat := 5
  /** `reconnectTimeout`, the base delay in milliseconds (websocket.ts:9). */
  const ReconnectTimeout: nat := 1000

  /** The four values of `WebSocket.readyState`. */
  datatype ReadyState = Connecting | Open | Closing | Closed

  datatype Socket = Socket(id: nat, ready: ReadyState)

  datatype HandlerKind = TodoUpdated | TodoCreated | TodoDeleted

  /** Which of the three optional handlers the consumer has set. */
  datatype Handlers = Handlers(updated: bool, created: bool, deleted: bool)

  /**
   * The client's fields: the socket handle (`ws`), the reconnect counter,
   * the delays of the reconnect timers scheduled and not yet fired, the
   * number the next socket gets, and the handlers.
   */
  datatype Client = Client(
    ws: Option<Socket>,
    attempts: nat,
    timers: seq<nat>,
    nextSocket: nat,
    handlers: Handlers
  )

  /**
   * An inbound frame after `JSON.parse`: either it failed (or parsed to a
   * value whose `.type` throws, such as `null`), or it is an object with a
   * `type` text and a payload. A missing `type` is any text that is not
   * one of the three known tags.
   */
  datatype Frame = Unparsable | Message(msgType: string, payload: string)

  datatype Invocation = Invocation(kind: HandlerKind, payload: string)

  /** The next client state and the observable effects of one transition. */
  datatype Reaction = Reaction(
    client: Client,
    sent: Option<string>,
    invoked: Option<Invocation>,
    scheduled: Option<nat>
  )

  /**
   * Everything that can happen to the client. `constructed` says whether
   * `new WebSocket(url)` returned (true) or threw (false).
   */
  datatype Event =
    | Connect(constructed: bool)
    | SocketOpen(sid: nat)
    | SocketClosing(sid: nat)
    | SocketClose(sid: nat)
    | SocketError(sid: nat)
    | SocketMessage(sid: nat, frame: Frame)
    | TimerFires(index: nat, constructed: bool)
    | Send(data: string)
    | Disconnect
    | SetHandler(kind: HandlerKind, registered: bool)

  /** A freshly constructed client (websocket.ts:6-7). */
  function Initial(): Client {
    Client(None, 0, [], 0, Handlers(false, false, false))
  }

  function Quiet(c: Client): Reaction {
    Reaction(c, None, None, None)
  }

  function Pow2(n: nat): (r: nat)
    ensures r >= 1 && (n >= 1 ==> r >= 2)
  {
    if n == 0 then 1 else 2 * Pow2(n - 1)
  }

  /** The delay before reconnect attempt number `attempt` (websocket.ts:65). */
  function BackoffDelay(attempt: nat): (d: nat)
    requires attempt >= 1
    ensures attempt == 1 ==> d == ReconnectTimeout
    ensures attempt > 1 ==> d >= 2 * ReconnectTimeout
  {
    ReconnectTimeout * Pow2(attempt - 1)
  }

  /** Each attempt waits twice as long as the one before it. */
  lemma BackoffDoubles(attempt: nat)
    requires attempt >= 1
    ensures BackoffDelay(attempt + 1) == 2 * BackoffDelay(attempt)
  {
  }

  /** The delays of the five attempts, in milliseconds. */
  lemma BackoffTable()
    ensures BackoffDelay(1) == 1000 && BackoffDelay(2) == 2000 && BackoffDelay(3) == 4000
    ensures BackoffDelay(4) == 8000 && BackoffDelay(5) == 16000
  {
  }

  /** A socket that `connect` refuses to replace (websocket.ts:23). */
  predicate IsLive(ws: Option<Socket>) {
    ws.Some? && (ws.value.ready == Connecting || ws.value.ready == Open)
  }

  /** `attemptReconnect` (websocket.ts:62-71). */
  function AttemptReconnect(c: Client): (r: Reaction)
    ensures r.sent.None? && r.invoked.None?
    ensures r.client.ws == c.ws && r.client.handlers == c.handlers && r.client.nextSocket == c.nextSocket
    ensures c.attempts < MaxReconnectAttempts ==>
      && r.client.attempts == c.attempts + 1
      && r.scheduled == Some(BackoffDelay(r.client.attempts))
      && r.client.timers == c.timers + [r.scheduled.value]
    ensures c.attempts >= MaxReconnectAttempts ==> r == Quiet(c)
  {
    if c.attempts < MaxReconnectAttempts then
      var n := c.attempts + 1;
      var delay := BackoffDelay(n);
      Reaction(c.(attempts := n, timers := c.timers + [delay]), None, None, Some(delay))
    else
      Quiet(c)
  }

  /** `connect` (websocket.ts:21-56). */
  function ConnectClient(c: Client, constructed: bool): (r: Reaction)
    ensures r.sent.None? && r.invoked.None? && r.client.handlers == c.handlers
    ensures IsLive(c.ws) ==> r == Quiet(c)
    ensures !IsLive(c.ws) && constructed ==>
      && r.client.ws == Some(Socket(c.nextSocket, Connecting))
      && r.client.nextSocket > c.nextSocket
      && r.client.attempts == c.attempts
      && r.client.timers == c.timers
      && r.scheduled.None?
    ensures !IsLive(c.ws) && !constructed ==> r == AttemptReconnect(c)
  {
    if IsLive(c.ws) then
      Quiet(c)
    else if constructed then
      Quiet(c.(ws := Some(Socket(c.nextSocket, Connecting)), nextSocket := c.nextSocket + 1))
    else
      AttemptReconnect(c)
  }

  /** Sets the ready state of the held socket when it is socket `sid`. */
  function SetReady(c: Client, sid: nat, state: ReadyState): (r: Client)
    ensures r.attempts == c.attempts && r.timers == c.timers && r.handlers == c.handlers
    ensures r.nextSocket == c.nextSocket
    ensures c.ws.Some? && c.ws.value.id == sid ==> r.ws == Some(Socket(sid, state))
    ensures !(c.ws.Some? && c.ws.value.id == sid) ==> r.ws == c.ws
  {
    if c.ws.Some? && c.ws.value.id == sid then c.(ws := Some(Socket(sid, state))) else c
  }

  /** The `onopen` closure (websocket.ts:30-33). */
  function OnOpen(c: Client, sid: nat): (r: Reaction)
    ensures r.client.attempts == 0
    ensures r.sent.None? && r.invoked.None? && r.scheduled.None?
    ensures r.client.timers == c.timers && r.client.handlers == c.handlers
    ensures r.client.nextSocket == c.nextSocket
    ensures c.ws.Some? && c.ws.value.id == sid ==> r.client.ws == Some(Socket(sid, Open))
    ensures !(c.ws.Some? && c.ws.value.id == sid) ==> r.client.ws == c.ws
  {
    Quiet(SetReady(c, sid, Open).(attempts := 0))
  }

  /** The `onclose` closure (websocket.ts:35-38): it runs `attemptReconnect`. */
  function OnClose(c: Client, sid: nat): (r: Reaction)
    ensures r.sent.None? && r.invoked.None? && r.client.handlers == c.handlers
    ensures r.client.nextSocket == c.nextSocket
    ensures c.attempts < MaxReconnectAttempts ==>
      && r.client.attempts == c.attempts + 1
      && r.scheduled == Some(BackoffDelay(c.attempts + 1))
      && r.client.timers == c.timers + [BackoffDelay(c.attempts + 1)]
    ensures c.attempts >= MaxReconnectAttempts ==>
      r.client.attempts == c.attempts && r.scheduled.None? && r.client.timers == c.timers
    ensures c.ws.Some? && c.ws.value.id == sid ==> r.client.ws == Some(Socket(sid, Closed))
    ensures !(c.ws.Some? && c.ws.value.id == sid) ==> r.client.ws == c.ws
  {
    AttemptReconnect(SetReady(c, sid, Closed))
  }

  /** The tag a handler answers to (websocket.ts:79-86). */
  function TypeName(k: HandlerKind): string {
    match k
    case TodoUpdated => "todo_updated"
    case TodoCreated => "todo_created"
    case TodoDeleted => "todo_deleted"
  }

  /** The `switch` of `handleMessage` (websocket.ts:78-90). */
  function KindOf(msgType: string): (r: Option<HandlerKind>)
    ensures r.Some? ==> TypeName(r.value) == msgType
  {
    if msgType == "todo_updated" then Some(TodoUpdated)
    else if msgType == "todo_created" then Some(TodoCreated)
    else if msgType == "todo_deleted" then Some(TodoDeleted)
    else None
  }

  /** Tags and handler kinds are in one-to-one correspondence. */
  lemma KindOfTypeName(k: HandlerKind)
    ensures KindOf(TypeName(k)) == Some(k)
  {
  }

  lemma KindOfUnknown(msgType: string)
    ensures KindOf(msgType).None? <==> (forall k: HandlerKind :: TypeName(k) != msgType)
  {
    if KindOf(msgType).None? {
      forall k: HandlerKind ensures TypeName(k) != msgType {
      }
    } else {
      assert TypeName(KindOf(msgType).value) == msgType;
    }
  }

  function Registered(h: Handlers, k: HandlerKind): bool {
    match k
    case TodoUpdated => h.updated
    case TodoCreated => h.created
    case TodoDeleted => h.deleted
  }

  /** The handler, if any, that a frame reaches (websocket.ts:44-51, 77-91). */
  function Dispatch(h: Handlers, f: Frame): (r: Option<Invocation>)
    ensures r.Some? <==> f.Message? && (exists k :: TypeName(k) == f.msgType && Registered(h, k))
    ensures r.Some? ==> TypeName(r.value.kind) == f.msgType && r.value.payload == f.payload
    ensures r.Some? ==> Registered(h, r.value.kind)
  {
    match f
    case Unparsable => None
    case Message(t, p) =>
      match KindOf(t)
      case None =>
        KindOfUnknown(t);
        None
      case Some(k) =>
        if Registered(h, k) then Some(Invocation(k, p))
        else
          assert forall k' :: TypeName(k') == t ==> k' == k by {
            forall k' | TypeName(k') == t ensures k' == k {
              KindOfTypeName(k');
            }
          }
          None
  }

  /** The `onmessage` closure: dispatch only, the client is untouched. */
  function OnMessage(c: Client, f: Frame): (r: Reaction)
    ensures r.client == c && r.sent.None? && r.scheduled.None?
    ensures r.invoked == Dispatch(c.handlers, f)
  {
    Reaction(c, None, Dispatch(c.handlers, f), None)
  }

  /** `send` (websocket.ts:105-111). */
  function SendData(c: Client, data: string): (r: Reaction)
    ensures r.client == c && r.invoked.None? && r.scheduled.None?
    ensures r.sent.Some? <==> c.ws.Some? && c.ws.value.ready == Open
    ensures r.sent.Some? ==> r.sent.value == data
  {
    if c.ws.Some? && c.ws.value.ready == Open then Reaction(c, Some(data), None, None) else Quiet(c)
  }

  /** `disconnect` (websocket.ts:116-121): the socket's closures stay attached. */
  function DisconnectClient(c: Client): (r: Reaction)
    ensures r.client.ws.None?
    ensures r.client.attempts == c.attempts && r.client.timers == c.timers && r.client.handlers == c.handlers
    ensures r.client.nextSocket == c.nextSocket
    ensures c.ws.None? ==> r == Quiet(c)
    ensures r.sent.None? && r.invoked.None? && r.scheduled.None?
  {
    Quiet(c.(ws := None))
  }

  /** The pending timers once timer `i` has fired: it alone leaves, and the others keep their order. */
  function RemoveAt(s: seq<nat>, i: nat): (r: seq<nat>)
    requires i < |s|
    ensures |r| == |s| - 1
    ensures multiset(r) == multiset(s) - multiset{s[i]}
    ensures forall j :: 0 <= j < i ==> r[j] == s[j]
    ensures forall j :: i <= j < |r| ==> r[j] == s[j + 1]
  {
    assert s == s[..i] + [s[i]] + s[i + 1..];
    s[..i] + s[i + 1..]
  }

  /**
   * Reconnect timer `index` fires and calls `connect` (websocket.ts:67).
   * The fired timer leaves the pending ones; the only timer that can join
   * them is the one a failing `connect` schedules.
   */
  function FireTimer(c: Client, index: nat, constructed: bool): (r: Reaction)
    ensures index >= |c.timers| ==> r == Quiet(c)
    ensures index < |c.timers| ==>
      && multiset(r.client.timers) + multiset{c.timers[index]}
         == multiset(c.timers) + (if r.scheduled.Some? then multiset{r.scheduled.value} else multiset{})
      && r.client.attempts >= c.attempts
      && r.sent.None? && r.invoked.None? && r.client.handlers == c.handlers
      && (IsLive(c.ws) ==> r.client.ws == c.ws && r.scheduled.None?)
      && (!IsLive(c.ws) && constructed ==> r.client.ws == Some(Socket(c.nextSocket, Connecting)) && r.scheduled.None?)
      && (r.scheduled.Some? ==> !IsLive(c.ws) && !constructed && r.client.attempts == c.attempts + 1)
  {
    if index < |c.timers| then ConnectClient(c.(timers := RemoveAt(c.timers, index)), constructed)
    else Quiet(c)
  }

  function SetHandlerOf(h: Handlers, k: HandlerKind, registered: bool): (r: Handlers)
    ensures Registered(r, k) == registered
    ensures forall k' :: k' != k ==> Registered(r, k') == Registered(h, k')
  {
    match k
    case TodoUpdated => h.(updated := registered)
    case TodoCreated => h.(created := registered)
    case TodoDeleted => h.(deleted := registered)
  }

  /** One event applied to the client. */
  function Step(c: Client, e: Event): (r: Reaction)
    ensures c.attempts <= MaxReconnectAttempts ==> r.client.attempts <= MaxReconnectAttempts
    ensures r.client.attempts < c.attempts ==> e.SocketOpen?
    ensures r.client.handlers != c.handlers ==> e.SetHandler?
    ensures r.sent.Some? ==> e.Send? && c.ws.Some? && c.ws.value.ready == Open
    ensures r.invoked.Some? ==> e.SocketMessage?
    ensures r.scheduled.Some? ==> c.attempts < MaxReconnectAttempts
    ensures r.scheduled.Some? ==> r.client.attempts == c.attempts + 1
  {
    match e
    case Connect(ok) => ConnectClient(c, ok)
    case SocketOpen(sid) => OnOpen(c, sid)
    case SocketClosing(sid) => Quiet(SetReady(c, sid, Closing))
    case SocketClose(sid) => OnClose(c, sid)
    case SocketError(_) => Quiet(c)
    case SocketMessage(_, f) => OnMessage(c, f)
    case TimerFires(i, ok) => FireTimer(c, i, ok)
    case Send(data) => SendData(c, data)
    case Disconnect => DisconnectClient(c)
    case SetHandler(k, on) => Quiet(c.(handlers := SetHandlerOf(c.handlers, k, on)))
  }

  /** The client after a sequence of events. */
  function Run(c: Client, es: seq<Event>): Client
    decreases |es|
  {
    if es == [] then c else Run(Step(c, es[0]).client, es[1..])
  }

  /** The delays of every reconnect timer scheduled while the events run. */
  function ScheduledBy(c: Client, es: seq<Event>): seq<nat>
    decreases |es|
  {
    if es == [] then []
    else
      var r := Step(c, es[0]);
      (if r.scheduled.Some? then [r.scheduled.value] else []) + ScheduledBy(r.client, es[1..])
  }

  /** The counter never exceeds the maximum, whatever happens. */
  lemma {:induction false} AttemptsBounded(c: Client, es: seq<Event>)
    requires c.attempts <= MaxReconnectAttempts
    ensures Run(c, es).attempts <= MaxReconnectAttempts
    decreases |es|
  {
    if es != [] {
      AttemptsBounded(Step(c, es[0]).client, es[1..]);
    }
  }

  lemma ReachableAttemptsBounded(es: seq<Event>)
    ensures Run(Initial(), es).attempts <= MaxReconnectAttempts
  {
    AttemptsBounded(Initial(), es);
  }

  /**
   * Once the counter is at the maximum, nothing but an `open` event brings
   * it down: no further timer is scheduled, not even after a manual
   * `connect`.
   */
  lemma {:induction false} ExhaustedStaysExhausted(c: Client, es: seq<Event>)
    requires c.attempts == MaxReconnectAttempts
    requires forall i :: 0 <= i < |es| ==> !es[i].SocketOpen?
    ensures Run(c, es).attempts == MaxReconnectAttempts
    ensures ScheduledBy(c, es) == []
    decreases |es|
  {
    if es != [] {
      var r := Step(c, es[0]);
      assert !es[0].SocketOpen?;
      ExhaustedStaysExhausted(r.client, es[1..]);
    }
  }

  /** `n` close events from socket `sid`. */
  function Closes(sid: nat, n: nat): (r: seq<Event>)
    ensures |r| == n
    ensures forall i :: 0 <= i < n ==> r[i] == SocketClose(sid)
  {
    if n == 0 then [] else [SocketClose(sid)] + Closes(sid, n - 1)
  }

  /** The delays of the attempts after attempt `from`, at most `n` of them, stopping at the maximum. */
  function Backoffs(from: nat, n: nat): seq<nat>
    decreases n
  {
    if n == 0 || from >= MaxReconnectAttempts then [] else [BackoffDelay(from + 1)] + Backoffs(from + 1, n - 1)
  }

  /** Consecutive closes with no `open` in between walk the backoff sequence. */
  lemma {:induction false} ClosesWalkBackoff(c: Client, sid: nat, n: nat)
    ensures ScheduledBy(c, Closes(sid, n)) == Backoffs(c.attempts, n)
    decreases n
  {
    if n > 0 {
      var es := Closes(sid, n);
      var r := Step(c, es[0]);
      assert es[1..] == Closes(sid, n - 1);
      ClosesWalkBackoff(r.client, sid, n - 1);
    }
  }

  /** From a fresh counter, six failures schedule exactly 1s, 2s, 4s, 8s and 16s and no sixth timer. */
  lemma SixClosesFromFresh(c: Client, sid: nat)
    requires c.attempts == 0
    ensures ScheduledBy(c, Closes(sid, 6)) == [1000, 2000, 4000, 8000, 16000]
  {
    ClosesWalkBackoff(c, sid, 6);
    BackoffTable();
    assert Backoffs(5, 1) == [];
  }

  /** `connect` does not reset the counter; only `open` does. */
  lemma ConnectKeepsCounter(c: Client, constructed: bool)
    ensures ConnectClient(c, constructed).client.attempts >= c.attempts
    ensures constructed ==> ConnectClient(c, constructed).client.attempts == c.attempts
  {
  }

  /**
   * After `disconnect`, the released socket's later `close` event still
   * runs `attemptReconnect` and schedules a timer while the counter allows.
   */
  lemma DisconnectThenStaleClose(c: Client)
    requires c.ws.Some? && c.attempts < MaxReconnectAttempts
    ensures var d := DisconnectClient(c).client;
      && d.ws.None?
      && Step(d, SocketClose(c.ws.value.id)).scheduled == Some(BackoffDelay(c.attempts + 1))
  {
  }

  /** An `error` event and every inbound frame leave the connection state as it was. */
  lemma ErrorAndMessageKeepState(c: Client, sid: nat, f: Frame)
    ensures Step(c, SocketError(sid)) == Quiet(c)
    ensures Step(c, SocketMessage(sid, f)).client == c
    ensures Step(c, SocketMessage(sid, f)).scheduled.None? && Step(c, SocketMessage(sid, f)).sent.None?
    ensures f.Unparsable? ==> Step(c, SocketMessage(sid, f)) == Quiet(c)
  {
  }

  /** `disconnect` twice is `disconnect` once. */
  lemma DisconnectIdempotent(c: Client)
    ensures DisconnectClient(DisconnectClient(c).client) == DisconnectClient(c)
  {
  }

  /**
   * More than one reconnect timer can be pending at once: a close, a manual
   * `connect` and a second close leave two.
   */
  lemma TwoTimersCanBePending()
    ensures |Run(Initial(), [Connect(true), SocketClose(0), Connect(true), SocketClose(1)]).timers| == 2
  {
    var es := [Connect(true), SocketClose(0), Connect(true), SocketClose(1)];
    var c1 := Step(Initial(), es[0]).client;
    var c2 := Step(c1, es[1]).client;
    var c3 := Step(c2, es[2]).client;
    var c4 := Step(c3, es[3]).client;
    assert |c4.timers| == 2;
    assert Run(c4, []) == c4;
    assert es[1..][1..][1..][1..] == [];
  }
}

=== FILE: wrappers.dfy ===
/** Failure-carrying datatypes shared by every module of the model. */
module Wrappers {

  /** An optional value: the model's stand-in for `null`, `undefined` and Python's `None`. */
  datatype Option<+T> = None | Some(value: T)

  /** A value or an error, for the Go functions that return `(value, error)`. */
  datatype Result<+T, +E> = Ok(value: T) | Err(error: E)
}
